=== FILE: README.md ===
# Flying Horse — a Dafny model of the game core

Flying Horse is a browser betting game. A horse runs along the ground
and jumps on springs. Each spring carries a multiplier. This is the
**launch** phase, a base bet that pays 1.5×–5× with probability 0.4.
In the sky the player fires bullets at the horse, a piñata. This is the
**shoot** phase. Each shot costs the bet and ends in one of four ways:

- a jackpot paying bet × spring multiplier;
- a small win of 20–80 % of the bet, or 150 % one time in ten;
- a bad explosion;
- a miss.

A server owns the balance and every random draw that decides a payout.
The client draws only presentation: the roadmap springs and the auto-play
delay. An admin API edits the
bet list and the return-to-player (RTP) setting, adjusts balances and
reports statistics. On the client, a small publish/subscribe hub connects
a game-state proxy, view mediators and commands. A canvas engine picks
spring multipliers by weight, colours them and runs an auto-play bot.

The model covers these files:

| file | module | what it models |
|---|---|---|
| `common.dfy` | `Common` | `Option`, error `Result`, `indexOf`, random-draw range |
| `cents.dfy` | `Cents` | `Math.floor(x*100)/100` and `Math.round(x*100)/100` on exact reals |
| `defaults.dfy` | `Defaults` | the server's default bet list and RTP |
| `math_model.dfy` | `MathModel` | the server's random game engine (launch, shoot, small win, RTP) |
| `game_controller.dfy` | `GameController` | the launch and shoot endpoints: guards, settlement, history record |
| `admin_controller.dfy` | `AdminController` | game-config validation and sorting, balance and status updates, paging, report arithmetic |
| `bet_selection.dfy` | `BetSelection` | the default-bet rule and the index clamp shared by the client's proxy and engine |
| `game_proxy.dfy` | `GameProxy` | the client's game state: bet selection and the updates after a server reply |
| `game_engine.dfy` | `GameEngine` | the engine's weighted multiplier draw, colours, chips, bet mirror and auto-play |
| `facade.dfy` | `Facade` | the publish/subscribe hub: proxy, mediator, command and observer maps, notification |

Modelling conventions:

- **Inputs, not calls.** Every `Math.random()` value is an explicit
  `real` argument in [0, 1). `Math.sin` is a function argument whose value
  at the engine's advanced phase lies in [-1, 1]. Database rows and
  request bodies are arguments as well.
- **Money.** Money is an exact `real`. `Math.floor` and `Math.round` are
  written with `.Floor`, so the model has no binary floating-point error.
- **Missing values.** JavaScript's `undefined` is `None`. A read past the
  end of a list, such as `betList[-1]`, gives `None`.
- **HTTP errors.** An HTTP 400 or 404 response is `Err(BadRequest(msg))` or
  `Err(NotFound(msg))`, carrying the source's message text.

Observations about the code as written:

- **RTP setting.** `updateGameConfig` stores the new RTP but never calls
  `setRTP`. The shared engine therefore keeps its constructor value of
  0.96. `MathModel.SetRTP` models the setter itself.
- **Zero RTP.** A stored RTP of 0 is falsy. `updateGameConfig` then falls
  back to the default 0.96 when no RTP is sent.
- **Launch record.** The launch history record stores the spring
  multiplier the client sent, not the launch multiplier the server drew.
- **Status update.** `updatePlayerStatus` does not check that the player
  exists. An unknown id succeeds and changes nothing.
- **Empty bet list.** Given an empty list, `adjustBet` selects index 0 and
  an `undefined` amount.
- **Server bet check.** The server's bet-list check covers `launch` only,
  so `shoot` accepts any positive or negative bet the balance covers. See
  Findings.
- **Database handle.** `backend/src/config/database.ts:1-55` exports a
  better-sqlite3 `Database`. `gameController.ts:2` and `authController.ts:4`
  import it under the name `prisma` and call Prisma-style members on it
  (`prisma.gameConfig.findUnique` at `gameController.ts:64`, and likewise
  `player` and `gameRecord`). A better-sqlite3 handle has no such members.
  So, as written, every `launch` or `shoot` that passes the field guard
  throws a TypeError, and the catch-all answers HTTP 500
  (`gameController.ts:119-121`). Only `adminController.ts` uses the handle
  correctly, through `db.prepare`. `GameController.Launch` and
  `GameController.Shoot` describe the handlers as they would behave if
  those database calls succeeded.

## Model

| member | source | states |
|---|---|---|
| MathModel.LaunchMultiplier | backend/src/services/mathModel.ts:26-30 | each launch multiplier (1.5, 2, 3, 5) is chosen exactly on its band of the draw: [0, .5), [.5, .8), [.8, .95), [.95, 1) |
| MathModel.LaunchMultiplierMonotone | backend/src/services/mathModel.ts:26-30 | a larger draw never gives a smaller launch multiplier |
| MathModel.GetLaunchResult | backend/src/services/mathModel.ts:19-36 | a launch wins exactly when the win draw is below 0.40; a loss pays 0 with multiplier 0; a win pays bet × the ladder multiplier picked by the ladder draw (one of {1.5, 2, 3, 5}), so between 1.5 and 5 bets |
| MathModel.LuckFactor | backend/src/services/mathModel.ts:47 | luck = 1 + 0.2·sin stays in [0.8, 1.2] |
| MathModel.BaseJackpotChance | backend/src/services/mathModel.ts:49-52 | the pre-luck jackpot chance always lies in [0.000001, 0.5] and equals the RTP share over the multiplier whenever that share is in range |
| MathModel.JackpotChance | backend/src/services/mathModel.ts:53 | with a luck factor in [0.8, 1.2] the jackpot threshold lies in [0.0000008, 0.6] |
| MathModel.ExplodeRisk | backend/src/services/mathModel.ts:55-57 | the bust risk is 0.02 plus 0.015 per hit below multiplier 50, exactly 0.02 more from 50 on, and at least 0.02 |
| MathModel.Clamp | backend/src/services/mathModel.ts:52 | the clamp lands in [lo, hi] and leaves values already inside unchanged |
| MathModel.Classify | backend/src/services/mathModel.ts:59-71 | jackpot iff roll < jackpot chance; otherwise bad explosion iff sub-roll < risk / luck, else small win iff sub-roll < small-win chance, else miss |
| MathModel.GetShootResult | backend/src/services/mathModel.ts:41-72 | each shot raises the spin count by one and the phase by 0.2, keeps the RTP, and gives the outcome its roll and sub-roll select under the chances computed from the advanced phase |
| MathModel.RunShots | backend/src/services/mathModel.ts:45-46 | after n shots the spin count has risen by n and the phase by 0.2·n |
| MathModel.JackpotChanceBounds | backend/src/services/mathModel.ts:49-53 | before luck, the jackpot chance is clamped to [0.000001, 0.5]; after luck it lies in [0.0000008, 0.6] |
| MathModel.JackpotChanceNonIncreasing | backend/src/services/mathModel.ts:50-53 | a higher spring multiplier never raises the jackpot chance |
| MathModel.ExplodeRiskIncreasing | backend/src/services/mathModel.ts:55-57 | each piñata hit adds 0.015 to the explosion risk, which strictly grows with hits |
| MathModel.JackpotIgnoresSubRoll | backend/src/services/mathModel.ts:59-64 | once the roll wins the jackpot, the sub-roll does not matter |
| MathModel.SharedSubRollBands | backend/src/services/mathModel.ts:64-71 | without a jackpot, a larger sub-roll never ranks higher in the order bad explosion, small win, miss |
| MathModel.WorkedShots | backend/src/services/mathModel.ts:41-72 | with RTP 0.96, sine 0, no hits and spring ×10 the jackpot chance is 0.0735: roll 0.05 is a jackpot; roll 0.5 with sub-roll 0.01 explodes, with 0.3 is a small win, with 0.9 a miss |
| MathModel.GetSmallWinAmount | backend/src/services/mathModel.ts:77-80 | a small win is a whole number of cents; a bonus draw below 0.1 pays 150 % of the bet floored to the cent; otherwise the bet × (0.2 + 0.6 × fraction draw) floored to the cent, so 20–80 % of the bet; never more than 150 % |
| MathModel.SmallWinFloorsToCent | backend/src/services/mathModel.ts:77-80 | a bet of 10 pays 5.00 at share 0.5 and 15.00 on the bonus |
| MathModel.SetRTP | backend/src/services/mathModel.ts:82-84 | setting the RTP changes only the target RTP |
| MathModel.SetRTPThenShoot | backend/src/services/mathModel.ts:41-84 | a shot after setting the RTP uses the new value for its jackpot chance |
| MathModel.SetRTPOverwrites | backend/src/services/mathModel.ts:82-84 | the last RTP set wins |
| GameController.Launch | backend/src/controllers/gameController.ts:54-123 | each guard answers with its own error in source order (missing fields, bet not on list, no player, insufficient balance); it succeeds exactly when all pass, and then the reply's multiplier is the ladder draw's multiplier on a win and 0 on a loss, the balance becomes balance − bet + win, and the record and reply carry those amounts and the same fresh round id |
| GameController.ResultNameIsLowerCase | backend/src/controllers/gameController.ts:153-171 | the stored result name is the lower-case form of the engine's outcome name |
| GameController.Payout | backend/src/controllers/gameController.ts:155-172 | a jackpot pays bet × multiplier, a small win pays 0–150 % of the bet, an explosion or miss pays nothing |
| GameController.RoundIdFor | backend/src/controllers/gameController.ts:181 | a supplied non-empty round id is kept; a missing or empty one is replaced by the fresh id |
| GameController.Shoot | backend/src/controllers/gameController.ts:125-205 | missing fields, no player and insufficient balance are answered in that order; otherwise the engine is the model's shot result (one more spin, phase + 0.2, RTP kept) and the balance becomes balance − bet + payout; the round id is the client's when given, else a fresh one |
| GameController.ShootNegativeBetCredits | backend/src/controllers/gameController.ts:127-147 | the shoot endpoint as written accepts bet −5 and a miss raises the balance from 100 to 105 |
| GameController.ShootChecked | backend/src/controllers/gameController.ts:125-205 | with the launch bet-list check added, a shot is accepted exactly when the unchecked shot would be and the bet is on the list, and an accepted shot equals the unchecked shot |
| GameController.DefaultBetListPositive | backend/src/config/index.ts:6-11 | every default bet is positive |
| GameController.ShootCheckedLossCosts | backend/src/controllers/gameController.ts:141-172 | with the check and positive listed bets, an explosion or miss strictly lowers the balance |
| AdminController.Insert | backend/src/controllers/adminController.ts:170 | inserting into a sorted list keeps it sorted and adds exactly one copy of the value |
| AdminController.SortAscending | backend/src/controllers/adminController.ts:170 | `sort((a, b) => a - b)` returns an ascending permutation of its input |
| AdminController.SortedPermutationUnique | backend/src/controllers/adminController.ts:170 | two ascending lists with the same elements are equal, so the sort result is unique |
| AdminController.UpdateGameConfig | backend/src/controllers/adminController.ts:159-175 | a non-array or short bet list is refused, then an RTP that is not a number in [0.5, 1.0]; otherwise the saved list is the sorted input or the stored or default list, and the RTP is the input or the stored non-zero value or 0.96 |
| AdminController.SaveSortedListUnchanged | backend/src/controllers/adminController.ts:162-170 | saving an already sorted valid list stores it unchanged |
| AdminController.UpdatePlayerBalance | backend/src/controllers/adminController.ts:68-83 | a non-number amount, a missing player and a negative result are refused; otherwise the new balance is the old plus the amount, and the reply echoes both |
| AdminController.BalanceAdjustmentReversible | backend/src/controllers/adminController.ts:77-83 | adjusting by a then by −a gives back the starting balance |
| AdminController.RefusedAdjustmentKeepsBalance | backend/src/controllers/adminController.ts:72-78 | a refused adjustment leaves the stored balance as it was |
| AdminController.UpdatePlayerStatus | backend/src/controllers/adminController.ts:90-96 | it succeeds exactly for "active" or "suspended", sets that player's status and no other, and adds no player |
| AdminController.UpdatePlayerStatusIdempotent | backend/src/controllers/adminController.ts:90-96 | a repeated status update with the same player and status changes nothing further |
| AdminController.Ceil | backend/src/controllers/adminController.ts:29 | `Math.ceil` is the least integer not below its argument |
| AdminController.ParamOr | backend/src/controllers/adminController.ts:8-9 | a non-zero number is kept, a missing one or 0 gives the fallback, so a non-zero fallback never yields 0 |
| AdminController.GetPlayersPage | backend/src/controllers/adminController.ts:6-29 | page and limit default to 1 and 20 when missing or zero; offset = (page − 1) × limit; the page count is the fewest pages of `limit` rows holding all rows, and every page in range starts at a row that exists; a negative limit (which `parseInt` lets through) gives no pages |
| AdminController.PagesCover | backend/src/controllers/adminController.ts:11-29 | `ceil(total / limit)` pages of `limit` rows hold every row, and one page fewer does not |
| AdminController.RtpPercent | backend/src/controllers/adminController.ts:115 | the RTP percentage is 0 with nothing wagered and lies in [0, 100] when paid ≤ wagered |
| AdminController.ReportOverview | backend/src/controllers/adminController.ts:114-130 | every money figure is a whole number of cents within half a cent of its exact value: total wagered, total paid, house edge and RTP percentage |
| AdminController.DailyReportRow | backend/src/controllers/adminController.ts:132-137 | date and bet count pass through; wagered and paid are rounded to within half a cent; profit is a whole number of cents within half a cent of wagered − paid, and equals the rounded wagered − paid when both are whole cents |
| AdminController.PlayerDetailStats | backend/src/controllers/adminController.ts:42-58 | game and jackpot counts pass through; total wagered and total won are rounded to within half a cent; net profit is a whole number of cents within half a cent of won − wagered; the RTP is 0 with nothing wagered and in [0, 100] when won ≤ wagered |
| AdminController.PlayerRtpMatchesReport | backend/src/controllers/adminController.ts:58-129 | the player page and the report compute the same rounded RTP percentage from the same sums |
| BetSelection.DefaultBetIndex | frontend/src/puremvc/model/GameProxy.ts:60-62 | the preset bet is the first 1.00 on the list; otherwise index min(4, length − 1); it is a valid index exactly for a non-empty list |
| BetSelection.ClampIndex | frontend/src/puremvc/model/GameProxy.ts:84-85 | the clamped index lies on a non-empty list, keeps in-range indices and sends under- and overflow to the ends |
| BetSelection.ClampIndexMonotone | frontend/src/puremvc/model/GameProxy.ts:84-85 | clamping keeps index order |
| GameProxy.LoadConfig | frontend/src/puremvc/model/GameProxy.ts:54-63 | loading a configuration stores it and selects the default bet; index and amount agree on a non-empty list; the round is untouched |
| GameProxy.SetBet | frontend/src/puremvc/model/GameProxy.ts:70-79 | an amount on the list selects its first index; anything else, or no configuration, changes nothing |
| GameProxy.AdjustBet | frontend/src/puremvc/model/GameProxy.ts:81-89 | the index steps by delta clamped to the list and the amount follows it |
| GameProxy.AdjustBetMonotone | frontend/src/puremvc/model/GameProxy.ts:81-89 | a larger step never selects a lower index |
| GameProxy.RequestLaunch | frontend/src/puremvc/model/GameProxy.ts:91-102 | a launch reply starts a round: its round id, the spring multiplier, zero hits; the bet and auto settings are kept; a failed request changes nothing |
| GameProxy.RequestShoot | frontend/src/puremvc/model/GameProxy.ts:104-125 | a shoot reply adds one hit; a jackpot extends the streak, an explosion resets it, a small win or miss keeps it; round, bet and auto settings are kept; a failed request changes nothing |
| GameProxy.ResetRound | frontend/src/puremvc/model/GameProxy.ts:127-131 | resetting returns multiplier, hits and round id to their start values and keeps the bet, streak and auto settings |
| GameProxy.RunKeepsBetConsistent | frontend/src/puremvc/model/GameProxy.ts:54-131 | any sequence of proxy operations keeps index and amount in agreement, as long as every configuration loaded has bets |
| GameProxy.LastExplode | frontend/src/puremvc/model/GameProxy.ts:114-118 | the position of the last explosion among the outcomes, with none after it |
| GameProxy.StreakCountsJackpotsSinceExplode | frontend/src/puremvc/model/GameProxy.ts:112-118 | after a run of shots, hits rose by the number of shots, and the streak counts the jackpots since the last explosion (added to the old streak when there was none) |
| GameEngine.PickWeighted | frontend/src/game/GameEngine.ts:630-634 | the weighted walk returns one of the types, if any |
| GameEngine.GenerateWeightedMultiplier | frontend/src/game/GameEngine.ts:628-636 | the drawn spring is always one of the roadmap types |
| GameEngine.PickWeightedBand | frontend/src/game/GameEngine.ts:630-634 | type i is returned exactly when the draw falls between the weight before it and the weight up to it |
| GameEngine.PickWeightedTotal | frontend/src/game/GameEngine.ts:629-635 | a draw below the total weight never reaches the fallback |
| GameEngine.GenerateWeightedMultiplierBand | frontend/src/game/GameEngine.ts:628-636 | for a draw in [0, 1), the roadmap type whose band holds draw × 1006 is drawn |
| GameEngine.MultiplierTotal | frontend/src/game/GameEngine.ts:75-85 | the roadmap weights are non-negative and add up to 1006 |
| GameEngine.CommonestSpring | frontend/src/game/GameEngine.ts:628-636 | the ×2 spring is drawn exactly when draw × 1006 < 400 |
| GameEngine.SpringColor | frontend/src/game/GameEngine.ts:638-648 | the colour is a `#rrggbb` string; it is green exactly below 5 and cyan exactly from 10000 (the lemmas below give the full ladder) |
| GameEngine.SpringColorMatchesRoadmap | frontend/src/game/GameEngine.ts:638-648 | a multiplier from one roadmap type's value up to the next type's gets that type's colour |
| GameEngine.SpringColorBelowFive | frontend/src/game/GameEngine.ts:638-648 | a multiplier below 5 is green, the colour of the ×2 type |
| Common.IndexOf | frontend/src/puremvc/model/GameProxy.ts:73 | `indexOf` is −1 exactly for an absent value, else the position of its first occurrence |
| Common.IndexOfSnoc | frontend/src/game/GameEngine.ts:360 | appending to a list does not move the first occurrence of a value already in it |
| GameEngine.Dedupe | frontend/src/game/GameEngine.ts:360 | `[...new Set(s)]` has no repeats and the same elements as its input, in the order of their first occurrences |
| GameEngine.SampleIndices | frontend/src/game/GameEngine.ts:359 | the five sample positions are 0, ⌊n/4⌋, ⌊n/2⌋, ⌊3n/4⌋ and n − 1, all valid indices |
| GameEngine.Samples | frontend/src/game/GameEngine.ts:360 | the sampled amounts are the list's amounts at the five sample positions, in position order |
| GameEngine.PickRepresentativeChips | frontend/src/game/GameEngine.ts:356-361 | up to five bets are shown whole; a longer list shows exactly the distinct sampled amounts, without repeats, in the order of their first sample position |
| GameEngine.SetConfig | frontend/src/game/GameEngine.ts:203-211 | the engine takes the new list and the default bet, with index and amount agreeing on a non-empty list |
| GameEngine.UpdateBetDisplay | frontend/src/game/GameEngine.ts:218-224 | the shown amount is always taken; the index moves to its first position only when it is on the list |
| GameEngine.UpdateBetDisplayOffList | frontend/src/game/GameEngine.ts:218-224 | an amount off the list leaves index and amount disagreeing |
| GameEngine.EngineFollowsAdjustBet | frontend/src/puremvc/model/GameProxy.ts:81-89 | after the proxy steps the bet and broadcasts it, the engine shows the same amount with a matching index; on a list without repeats the index is the proxy's |
| GameEngine.CanStartShooting | frontend/src/game/GameEngine.ts:966 | a shooting round starts exactly when a bet is set and the balance covers it; an undefined bet never starts one |
| GameEngine.StartAuto | frontend/src/game/GameEngine.ts:409-414 | starting auto-play switches it on with the full round budget |
| GameEngine.AutoLaunches | frontend/src/game/GameEngine.ts:952-964 | the bot launches exactly when auto is on, a target spring is in reach with its multiplier inside the chosen range, and no request is pending |
| GameEngine.AutoLaunchesAfterStart | frontend/src/game/GameEngine.ts:409-414 | right after auto-play starts, the bot launches on a target exactly when its multiplier is inside the chosen range and nothing is pending, and never without a target |
| GameEngine.AutoStopNeverLaunches | frontend/src/game/GameEngine.ts:952-976 | once a finite budget is used up, or a sky frame finds the balance short of the bet, the bot is off and launches on no target |
| GameEngine.AutoSkyStep | frontend/src/game/GameEngine.ts:965-976 | the bot shoots exactly when the balance covers the bet; a finite budget counts down and stops at zero; a budget of 9999 or more never counts; no money stops the bot |
| GameEngine.AutoRunFiresBudget | frontend/src/game/GameEngine.ts:965-976 | with money each frame, a budget of n rounds fires exactly n times and then switches off; an unlimited budget fires every frame |
| GameEngine.AutoRunInactive | frontend/src/game/GameEngine.ts:952-977 | a stopped bot does nothing |
| Facade.RegisterObserver | frontend/src/puremvc/core.ts:159-163 | the observer joins the end of its name's list; other lists and maps are untouched |
| Facade.Without | frontend/src/puremvc/core.ts:170 | filtering keeps exactly the observers bound to another context, in order |
| Facade.WithoutAppend | frontend/src/puremvc/core.ts:170 | filtering a joined list is joining the filtered parts |
| Facade.RemoveObserver | frontend/src/puremvc/core.ts:165-173 | a name's list loses the observers bound to the context; a name without a list is left alone |
| Facade.RegisterAll | frontend/src/puremvc/core.ts:116-121 | each name gains one observer per occurrence among the interests |
| Facade.RegisterMediator | frontend/src/puremvc/core.ts:111-123 | a second mediator of one name is ignored; otherwise it is stored and each interest's list gains one observer bound to it per occurrence |
| Facade.RetrieveMediator | frontend/src/puremvc/core.ts:125-127 | lookup by name, `None` when absent |
| Facade.RemoveAll | frontend/src/puremvc/core.ts:132-135 | the lists of the interests lose the mediator's observers and the others stay |
| Facade.RemoveMediator | frontend/src/puremvc/core.ts:129-140 | a registered mediator leaves the map and its observers leave its interests' lists, and it is returned; an unknown name changes nothing and returns `None` |
| Facade.RegisterThenRemoveMediator | frontend/src/puremvc/core.ts:111-140 | registering a new mediator and removing it restores the mediator map and what every notification reaches |
| Facade.RegisterCommand | frontend/src/puremvc/core.ts:143-148 | only the first registration for a name installs the command observer; every registration rebinds the command |
| Facade.RegisterCommandTwice | frontend/src/puremvc/core.ts:143-148 | registering a command twice leaves one command observer and the later command |
| Facade.RegisterProxy | frontend/src/puremvc/core.ts:88-91 | a proxy is stored under its name, replacing any earlier one |
| Facade.RetrieveProxy | frontend/src/puremvc/core.ts:93-95 | lookup by name, `None` when absent |
| Facade.RemoveProxy | frontend/src/puremvc/core.ts:97-104 | the named proxy leaves the map and is returned, `None` when absent |
| Facade.HasProxy | frontend/src/puremvc/core.ts:106-108 | true exactly when retrieval finds a proxy |
| Facade.ProxyRoundTrip | frontend/src/puremvc/core.ts:88-108 | a registered proxy is retrieved by its name, other names are unaffected, and removal returns it and forgets it |
| Facade.NotifyObservers | frontend/src/puremvc/core.ts:181-190 | the observers called are exactly the list at the start, in order, whatever the callbacks do to the hub meanwhile |
| Cents.FloorToCent | backend/src/services/mathModel.ts:78-79 | floor to the cent gives a whole number of cents at most 1 cent below its argument |
| Cents.RoundToCent | backend/src/controllers/adminController.ts:54-58 | rounding to the cent gives a whole number of cents within half a cent of its argument |
| Cents.FloorToCentMonotone | backend/src/services/mathModel.ts:78-79 | flooring to the cent keeps order |
| Cents.RoundToCentMonotone | backend/src/controllers/adminController.ts:126-129 | rounding to the cent keeps order |
| Cents.WholeCentsFixed | backend/src/controllers/adminController.ts:126-129 | whole-cent amounts are unchanged by rounding or flooring |

## Left out

- Randomness, `Math.sin` and the clock are inputs. The model does not
  reason about probabilities. It states which draws give which outcome.
- JavaScript numbers are exact reals here. Binary floating-point rounding
  of money is not modelled, for example 0.1 + 0.2 ≠ 0.3.
- Persistence is left out: the SQLite tables, the JSON text of the bet
  list and database transactions. A database row is an argument and an
  updated row is a result.
- GameController.Launch and GameController.Shoot assume every database call
  succeeds. As written, those calls go through the better-sqlite3 handle
  under the name `prisma` and fail with HTTP 500 (see Database handle
  above). The model describes the handlers' intended logic, not that
  failure.
- Authentication, login, the JWT middleware, the records endpoints and
  the HTTP 500 catch-all are not modelled.
- The engine is one shared singleton across all players, and requests
  may interleave. The model threads one engine value through each call.
- GameController.Shoot: a non-integer `pinataHits` is not modelled. The
  hit count is an `int`.
- GameController.Launch: the spring multiplier in the request only has to
  be truthy, that is present and non-zero. Its value is otherwise only
  stored, so the model does not check that it is a roadmap multiplier.
- The client's asynchronous API calls are not modelled. `RequestLaunch`
  and `RequestShoot` take the server's reply, or `None` for a failed
  request. The notifications they send are not modelled beyond what
  `Facade.NotifyObservers` states.
- Facade.NotifyObservers: callbacks are one effect function on the hub.
  Each callback's own logic, that is the mediators and commands of the
  game, is not modelled.
- Facade.RemoveMediator: it asks the mediator for its interests again. The
  model uses the interests given when the mediator was registered, which
  is what every mediator in the client returns.
- Facade.RegisterMediator: an observer's context is the mediator's object.
  The model identifies it by the mediator's name. The hub never holds two
  mediators of one name, so the two agree.
- `getInstance` (the singleton accessor), the `Notification` class and
  the `onRegister`/`onRemove` hooks are not modelled. `registerProxy` and
  `registerMediator` call `onRegister`, and two classes override it.
  `PlayerProxy.ts:26-39` restores a session and sends a notification after
  an `await`. `LoginMediator.ts:45-47` builds the login screen. Neither
  override changes the hub's maps.
- GameEngine.AutoLaunches: the random 0–5 frame delay (`autoDelay`) is not
  modelled. The function states when a launch is allowed, not on which
  frame it happens.
- GameEngine.AutoSkyStep: the frame conditions on the sky state, firing,
  hit cooldown and pending request are assumed to hold. The function
  models the decision once the bot is free to fire.
- Drawing, animation, audio, physics, the DOM, menus, history and the
  languages of the engine are not modelled, nor is the camera.
- The player's search in `getPlayers` is not modelled. It only changes
  which rows are counted, and the model takes that count as an input.

## Findings

| source | as written | input that shows it | evidently intended | confidence | as-written member | corrected member |
|---|---|---|---|---|---|---|
| backend/src/controllers/gameController.ts:127-147 | `shoot` checks only that `betAmount` is truthy and covered by the balance, and does not check it against the bet list as `launch` does | bet −5, balance 100, roll 0.99, sub-roll 0.99 at ×2: the result is a miss and the balance becomes 105 | a shot's bet must be one of the listed bets, as for launch, so a losing shot always costs money | high (not executed) | GameController.ShootNegativeBetCredits | GameController.ShootChecked, GameController.ShootCheckedLossCosts |

=== FILE: admin_controller.dfy ===
/**
 * The administrator endpoints (backend/src/controllers/adminController.ts):
 * the validation and arithmetic around the database calls. Stored rows
 * are parameters (`None` when the row does not exist) and the values the
 * endpoint writes back are part of the result.
 */
module AdminController {
  import opened Common
  import opened Cents
  import Defaults

  // ---------------------------------------------------------------- sorting

  predicate SortedAsc(s: seq<real>)
  {
    forall i, j :: 0 <= i < j < |s| ==> s[i] <= s[j]
  }

  function Insert(x: real, s: seq<real>): (r: seq<real>)
    requires SortedAsc(s)
    ensures SortedAsc(r)
    ensures multiset(r) == multiset(s) + multiset{x}
    ensures |r| == |s| + 1
    ensures r[0] == if |s| > 0 && s[0] < x then s[0] else x
  {
    if |s| == 0 then [x]
    else if x <= s[0] then [x] + s
    else
      var rest := Insert(x, s[1..]);
      assert multiset(s) == multiset{s[0]} + multiset(s[1..]) by { assert s == [s[0]] + s[1..]; }
      assert s[0] <= rest[0];
      [s[0]] + rest
  }

  /** `list.sort((a, b) => a - b)`: numeric ascending order. */
  function SortAscending(s: seq<real>): (r: seq<real>)
    ensures SortedAsc(r)
    ensures multiset(r) == multiset(s)
  {
    if |s| == 0 then []
    else
      var n := |s| - 1;
      assert s == s[..n] + [s[n]];
      Insert(s[n], SortAscending(s[..n]))
  }

  /**
   * A list has only one ascending arrangement: any two sorted permutations
   * of the same amounts are equal, so the stored list does not depend on
   * which sorting algorithm the runtime uses.
   */
  lemma {:induction false} SortedPermutationUnique(a: seq<real>, b: seq<real>)
    requires SortedAsc(a) && SortedAsc(b)
    requires multiset(a) == multiset(b)
    ensures a == b
    decreases |a|
  {
    assert |a| == |multiset(a)| == |multiset(b)| == |b|;
    if |a| > 0 {
      var x, y := a[0], b[0];
      SortedHeadIsLeast(b, x);
      SortedHeadIsLeast(a, y);
      assert x == y;
      var a', b' := a[1..], b[1..];
      assert a == [x] + a';
      assert b == [x] + b';
      assert multiset(a') == multiset(a) - multiset{x};
      assert multiset(b') == multiset(b) - multiset{x};
      SortedPermutationUnique(a', b');
    }
  }

  /** The head of a sorted list is at most any of its members. */
  lemma SortedHeadIsLeast(s: seq<real>, x: real)
    requires SortedAsc(s)
    requires x in multiset(s)
    ensures |s| > 0 && s[0] <= x
  {
    assert x in s;
    var i :| 0 <= i < |s| && s[i] == x;
    assert i == 0 || s[0] <= s[i];
  }

  // ---------------------------------------------------------------- game config

  /** The `betList` field of an update request. */
  datatype BetListInput =
    | NoBetList                   // absent, null or another falsy value
    | NotAnArray                  // a truthy value that is not an array
    | BetArray(items: seq<real>)

  /** The `rtp` field of an update request. */
  datatype RtpInput =
    | NoRtp                       // undefined
    | NotANumber                  // present but not of type number (null included)
    | RtpNumber(value: real)

  /** The stored configuration row. */
  datatype ConfigRow = ConfigRow(betList: seq<real>, rtp: real)

  const MinBetListLength: nat := 5
  const MinRtp: real := 0.5
  const MaxRtp: real := 1.0

  predicate BetListValid(b: BetListInput)
  {
    b.NoBetList? || (b.BetArray? && |b.items| >= MinBetListLength)
  }

  predicate RtpValid(r: RtpInput)
  {
    r.NoRtp? || (r.RtpNumber? && MinRtp <= r.value <= MaxRtp)
  }

  /**
   * `updateGameConfig`: the bet list is checked before the RTP; an accepted
   * list is stored in ascending order; an omitted field keeps the stored
   * value (a stored RTP of 0 counts as missing) or else the default.
   */
  function UpdateGameConfig(betList: BetListInput, rtp: RtpInput, existing: Option<ConfigRow>): (r: Result<ConfigRow>)
    ensures !BetListValid(betList) ==> r == Err(BadRequest("betList must have at least 5 items"))
    ensures BetListValid(betList) && !RtpValid(rtp) ==> r == Err(BadRequest("RTP must be 0.5-1.0"))
    ensures r.Ok? <==> BetListValid(betList) && RtpValid(rtp)
    ensures r.Ok? && betList.BetArray? ==>
      SortedAsc(r.value.betList) && multiset(r.value.betList) == multiset(betList.items)
    ensures r.Ok? && betList.NoBetList? ==>
      r.value.betList == (if existing.Some? then existing.value.betList else Defaults.DefaultBetList)
    ensures r.Ok? && rtp.RtpNumber? ==> r.value.rtp == rtp.value && MinRtp <= r.value.rtp <= MaxRtp
    ensures r.Ok? && rtp.NoRtp? ==>
      r.value.rtp == (if existing.Some? && existing.value.rtp != 0.0 then existing.value.rtp
                      else Defaults.DefaultRtp)
  {
    if !BetListValid(betList) then Err(BadRequest("betList must have at least 5 items"))
    else if !RtpValid(rtp) then Err(BadRequest("RTP must be 0.5-1.0"))
    else
      var newBetList :=
        if betList.BetArray? then SortAscending(betList.items)
        else if existing.Some? then existing.value.betList
        else Defaults.DefaultBetList;
      var newRtp :=
        if rtp.RtpNumber? then rtp.value
        else if existing.Some? && existing.value.rtp != 0.0 then existing.value.rtp
        else Defaults.DefaultRtp;
      Ok(ConfigRow(newBetList, newRtp))
  }

  /** Saving a list that is already stored sorted stores it unchanged. */
  lemma SaveSortedListUnchanged(items: seq<real>, rtp: RtpInput, existing: Option<ConfigRow>)
    requires |items| >= MinBetListLength && SortedAsc(items)
    requires RtpValid(rtp)
    ensures UpdateGameConfig(BetArray(items), rtp, existing).Ok?
    ensures UpdateGameConfig(BetArray(items), rtp, existing).value.betList == items
  {
    var r := UpdateGameConfig(BetArray(items), rtp, existing);
    SortedPermutationUnique(r.value.betList, items);
  }

  // ---------------------------------------------------------------- player balance and status

  datatype BalanceReply = BalanceReply(playerId: string, previousBalance: real, adjustment: real, newBalance: real)

  /**
   * `updatePlayerBalance`: `amount` is `None` when the body's amount is not
   * a number; `stored` is `None` when the player does not exist.
   */
  function UpdatePlayerBalance(id: string, amount: Option<real>, stored: Option<real>): (r: Result<BalanceReply>)
    ensures amount.None? ==> r == Err(BadRequest("Amount must be number"))
    ensures amount.Some? && stored.None? ==> r == Err(NotFound("Player not found"))
    ensures (amount.Some? && stored.Some? && stored.value + amount.value < 0.0) ==>
      r == Err(BadRequest("Balance cannot be negative"))
    ensures r.Ok? <==> amount.Some? && stored.Some? && stored.value + amount.value >= 0.0
    ensures r.Ok? ==>
      && r.value.playerId == id
      && r.value.previousBalance == stored.value
      && r.value.adjustment == amount.value
      && r.value.newBalance == r.value.previousBalance + r.value.adjustment
      && r.value.newBalance >= 0.0
  {
    if amount.None? then Err(BadRequest("Amount must be number"))
    else if stored.None? then Err(NotFound("Player not found"))
    else
      var newBalance := stored.value + amount.value;
      if newBalance < 0.0 then Err(BadRequest("Balance cannot be negative"))
      else Ok(BalanceReply(id, stored.value, amount.value, newBalance))
  }

  /** The balance stored after the request: the new one on success, the old one on any refusal. */
  function StoredBalanceAfter(stored: Option<real>, r: Result<BalanceReply>): Option<real>
  {
    if r.Ok? then Some(r.value.newBalance) else stored
  }

  /** An accepted adjustment can always be undone by the opposite adjustment. */
  lemma BalanceAdjustmentReversible(id: string, amount: real, stored: real)
    requires stored >= 0.0
    requires UpdatePlayerBalance(id, Some(amount), Some(stored)).Ok?
    ensures
      var after := StoredBalanceAfter(Some(stored), UpdatePlayerBalance(id, Some(amount), Some(stored)));
      var back := UpdatePlayerBalance(id, Some(-amount), after);
      back.Ok? && StoredBalanceAfter(after, back) == Some(stored)
  {
  }

  /** A refused adjustment leaves the stored balance as it was. */
  lemma RefusedAdjustmentKeepsBalance(id: string, amount: Option<real>, stored: Option<real>)
    requires UpdatePlayerBalance(id, amount, stored).Err?
    ensures StoredBalanceAfter(stored, UpdatePlayerBalance(id, amount, stored)) == stored
  {
  }

  predicate StatusValid(status: string)
  {
    status == "active" || status == "suspended"
  }

  /**
   * `updatePlayerStatus` over the stored statuses by player id. Only the
   * two known statuses are accepted; an unknown id updates no row but the
   * request still succeeds.
   */
  function UpdatePlayerStatus(statuses: map<string, string>, id: string, status: string): (r: Result<map<string, string>>)
    ensures r.Ok? <==> StatusValid(status)
    ensures !StatusValid(status) ==> r == Err(BadRequest("Invalid status"))
    ensures r.Ok? ==> r.value.Keys == statuses.Keys
    ensures r.Ok? && id in statuses ==> r.value[id] == status
    ensures r.Ok? ==> forall other :: other in statuses && other != id ==> r.value[other] == statuses[other]
  {
    if !StatusValid(status) then Err(BadRequest("Invalid status"))
    else if id in statuses then Ok(statuses[id := status])
    else Ok(statuses)
  }

  /** Setting a player's status twice in a row leaves the same table as setting it once. */
  lemma UpdatePlayerStatusIdempotent(statuses: map<string, string>, id: string, status: string)
    requires UpdatePlayerStatus(statuses, id, status).Ok?
    ensures UpdatePlayerStatus(UpdatePlayerStatus(statuses, id, status).value, id, status) == UpdatePlayerStatus(statuses, id, status)
  {
    if id in statuses {
      var once := statuses[id := status];
      assert once[id := status] == once;
    }
  }

  // ---------------------------------------------------------------- player list paging

  datatype Pagination = Pagination(page: int, limit: int, offset: int, total: nat, totalPages: int)

  const DefaultPage: int := 1
  const DefaultLimit: int := 20

  /** `parseInt(param) || fallback`: `None` is a missing or unparsable parameter (NaN); 0 is also replaced. */
  function ParamOr(param: Option<int>, fallback: int): (v: int)
    ensures param.Some? && param.value != 0 ==> v == param.value
    ensures param.None? || param.value == 0 ==> v == fallback
    ensures fallback != 0 ==> v != 0
  {
    if param.Some? && param.value != 0 then param.value else fallback
  }

  /** `Math.ceil`. */
  function Ceil(x: real): (r: int)
    ensures r as real - 1.0 < x <= r as real
  {
    -((-x).Floor)
  }

  /** The paging arithmetic of `getPlayers` over `total` matching players. */
  function GetPlayersPage(pageParam: Option<int>, limitParam: Option<int>, total: nat): (r: Pagination)
    ensures r.page == ParamOr(pageParam, DefaultPage) && r.limit == ParamOr(limitParam, DefaultLimit)
    ensures r.limit != 0 && r.page != 0
    ensures r.offset == (r.page - 1) * r.limit
    ensures r.total == total
    ensures r.limit > 0 ==> r.totalPages >= 0 && (r.totalPages - 1) * r.limit < total <= r.totalPages * r.limit
    ensures r.limit > 0 && 1 <= r.page <= r.totalPages ==> 0 <= r.offset < total
    ensures r.limit < 0 ==> r.totalPages <= 0
  {
    var page := ParamOr(pageParam, DefaultPage);
    var limit := ParamOr(limitParam, DefaultLimit);
    var totalPages := Ceil(total as real / limit as real);
    assert limit > 0 ==>
      && totalPages >= 0
      && (totalPages - 1) * limit < total <= totalPages * limit
      && (1 <= page <= totalPages ==> 0 <= (page - 1) * limit < total) by {
      if limit > 0 { PagesCover(total, limit, totalPages, page); }
    }
    assert limit < 0 ==> totalPages <= 0 by {
      if limit < 0 { NoPagesForNegativeLimit(total, limit, totalPages); }
    }
    Pagination(page, limit, (page - 1) * limit, total, totalPages)
  }

  /** A negative limit (`parseInt` lets "-5" through) gives no pages. */
  lemma NoPagesForNegativeLimit(total: nat, limit: int, totalPages: int)
    requires limit < 0
    requires totalPages as real - 1.0 < total as real / limit as real
    ensures totalPages <= 0
  {
    var q := total as real / limit as real;
    assert q * limit as real == total as real;
    if q > 0.0 {
      MulLess(limit as real, 0.0, q);
      assert false;
    }
  }

  lemma PagesCover(total: nat, limit: int, totalPages: int, page: int)
    requires limit > 0
    requires totalPages as real - 1.0 < total as real / limit as real <= totalPages as real
    ensures totalPages >= 0
    ensures (totalPages - 1) * limit < total <= totalPages * limit
    ensures 1 <= page <= totalPages ==> 0 <= (page - 1) * limit < total
  {
    ScaledBounds(total as real, limit as real, totalPages as real);
    CastProduct(totalPages - 1, limit);
    CastProduct(totalPages, limit);
    assert (totalPages as real - 1.0) == (totalPages - 1) as real;
    assert ((totalPages - 1) * limit) as real < total as real;
    assert total as real <= (totalPages * limit) as real;
    if 1 <= page <= totalPages {
      PageOffsetBelow(limit, totalPages, page);
    }
  }

  lemma PageOffsetBelow(limit: int, totalPages: int, page: int)
    requires limit > 0 && 1 <= page <= totalPages
    ensures 0 <= (page - 1) * limit <= (totalPages - 1) * limit
  {
    assert (totalPages - 1) * limit - (page - 1) * limit == (totalPages - page) * limit;
  }

  /** `t - 1 < T / L <= t` scaled by a positive `L`. */
  lemma ScaledBounds(T: real, L: real, t: real)
    requires L > 0.0
    requires t - 1.0 < T / L <= t
    ensures (t - 1.0) * L < T <= t * L
  {
    var q := T / L;
    assert q * L == T;
    MulLess(t - 1.0, q, L);
    assert (t - 1.0) * L < q * L;
    assert (t - 1.0) * L < T;
    MulLessEq(q, t, L);
    assert q * L <= t * L;
  }

  lemma CastProduct(a: int, b: int)
    ensures (a * b) as real == a as real * b as real
  {
  }

  // ---------------------------------------------------------------- reports

  /** The overview block of `getReports`, from the summed wagers and payouts. */
  datatype Overview = Overview(totalWagered: real, totalPaid: real, houseEdge: real, actualRTP: real)

  /** A share of a positive whole lies in [0, 1]. */
  lemma RatioAtMostOne(part: real, whole: real)
    requires whole > 0.0 && 0.0 <= part <= whole
    ensures 0.0 <= part / whole <= 1.0
  {
    var q := part / whole;
    assert q * whole == part;
    if q > 1.0 {
      MulLess(1.0, q, whole);
      assert false;
    }
    if q < 0.0 {
      MulLess(q, 0.0, whole);
      assert false;
    }
  }

  /** Payout as a percentage of the amount wagered; 0 when nothing was wagered. */
  function RtpPercent(wagered: real, paid: real): (p: real)
    ensures wagered <= 0.0 ==> p == 0.0
    ensures 0.0 <= paid <= wagered ==> 0.0 <= p <= 100.0
  {
    if wagered > 0.0 then
      assert 0.0 <= paid <= wagered ==> 0.0 <= paid / wagered <= 1.0 by {
        if 0.0 <= paid <= wagered { RatioAtMostOne(paid, wagered); }
      }
      paid / wagered * 100.0
    else 0.0
  }

  function ReportOverview(wagered: real, paid: real): (r: Overview)
    ensures WholeCents(r.totalWagered) && WholeCents(r.totalPaid)
    ensures r.totalWagered - 0.005 <= wagered < r.totalWagered + 0.005
    ensures r.totalPaid - 0.005 <= paid < r.totalPaid + 0.005
    ensures WholeCents(r.houseEdge) && WholeCents(r.actualRTP)
    ensures r.houseEdge - 0.005 <= wagered - paid < r.houseEdge + 0.005
    ensures wagered <= 0.0 ==> r.actualRTP == 0.0
    ensures wagered > 0.0 ==> r.actualRTP - 0.005 <= paid / wagered * 100.0 < r.actualRTP + 0.005
    ensures 0.0 <= paid <= wagered ==> 0.0 <= r.actualRTP <= 100.0
  {
    var rtp := RtpPercent(wagered, paid);
    RoundedPercentInRange(rtp);
    Overview(RoundToCent(wagered), RoundToCent(paid), RoundToCent(wagered - paid), RoundToCent(rtp))
  }

  lemma RoundedPercentInRange(p: real)
    ensures p == 0.0 ==> RoundToCent(p) == 0.0
    ensures 0.0 <= p <= 100.0 ==> 0.0 <= RoundToCent(p) <= 100.0
  {
    WholeCentsFixed(0.0);
    WholeCentsFixed(100.0);
    if 0.0 <= p <= 100.0 {
      RoundToCentMonotone(0.0, p);
      RoundToCentMonotone(p, 100.0);
    }
  }

  /** One day of the `getReports` daily table: the house profit is wagered minus paid. */
  datatype DailyRow = DailyRow(date: string, bets: nat, wagered: real, paid: real, profit: real)

  function DailyReportRow(date: string, bets: nat, wagered: real, paid: real): (r: DailyRow)
    ensures r.date == date && r.bets == bets
    ensures WholeCents(r.wagered) && r.wagered - 0.005 <= wagered < r.wagered + 0.005
    ensures WholeCents(r.paid) && r.paid - 0.005 <= paid < r.paid + 0.005
    ensures WholeCents(r.profit) && r.profit - 0.005 <= wagered - paid < r.profit + 0.005
    ensures WholeCents(wagered) && WholeCents(paid) ==> r.profit == r.wagered - r.paid
  {
    assert WholeCents(wagered) && WholeCents(paid) ==>
      RoundToCent(wagered - paid) == RoundToCent(wagered) - RoundToCent(paid) by {
      if WholeCents(wagered) && WholeCents(paid) {
        WholeCentsFixed(wagered);
        WholeCentsFixed(paid);
        WholeCentsDifference(wagered, paid);
        WholeCentsFixed(wagered - paid);
      }
    }
    DailyRow(date, bets, RoundToCent(wagered), RoundToCent(paid), RoundToCent(wagered - paid))
  }

  lemma WholeCentsDifference(a: real, b: real)
    requires WholeCents(a) && WholeCents(b)
    ensures WholeCents(a - b)
  {
    var ka, kb := (a * 100.0).Floor, (b * 100.0).Floor;
    assert (a - b) * 100.0 == (ka - kb) as real;
  }

  /** The statistics block of `getPlayerDetail`. */
  datatype PlayerStats = PlayerStats(
    totalGames: nat, totalWagered: real, totalWon: real, netProfit: real, jackpots: nat, rtp: real)

  function PlayerDetailStats(games: nat, wagered: real, won: real, jackpots: nat): (r: PlayerStats)
    ensures r.totalGames == games && r.jackpots == jackpots
    ensures WholeCents(r.totalWagered) && r.totalWagered - 0.005 <= wagered < r.totalWagered + 0.005
    ensures WholeCents(r.totalWon) && r.totalWon - 0.005 <= won < r.totalWon + 0.005
    ensures WholeCents(r.netProfit) && r.netProfit - 0.005 <= won - wagered < r.netProfit + 0.005
    ensures wagered <= 0.0 ==> r.rtp == 0.0
    ensures 0.0 <= won <= wagered ==> 0.0 <= r.rtp <= 100.0
  {
    var rtp := if wagered > 0.0 then RoundToCent(won / wagered * 10000.0 / 100.0) else 0.0;
    RoundedPercentInRange(RtpPercent(wagered, won));
    assert wagered > 0.0 ==> won / wagered * 10000.0 / 100.0 == RtpPercent(wagered, won);
    PlayerStats(games, RoundToCent(wagered), RoundToCent(won), RoundToCent(won - wagered), jackpots, rtp)
  }

  /** A player's RTP is computed exactly as the overall report's RTP would be for that player's totals. */
  lemma PlayerRtpMatchesReport(games: nat, wagered: real, won: real, jackpots: nat)
    ensures PlayerDetailStats(games, wagered, won, jackpots).rtp == ReportOverview(wagered, won).actualRTP
  {
    if wagered > 0.0 {
      assert won / wagered * 10000.0 / 100.0 == won / wagered * 100.0;
    } else {
      WholeCentsFixed(0.0);
    }
  }
}

=== FILE: bet_selection.dfy ===
/**
 * The bet-selection rules the client shares between its state proxy
 * (GameProxy.loadConfig) and its canvas engine (GameEngine.setConfig):
 * which bet is selected when a configuration arrives, and when a
 * selected index and a shown amount agree with a list.
 */
module BetSelection {
  import opened Common

  /** The bet preselected when the list offers it. */
  const PreferredBet: real := 1.0
  /** The index preselected otherwise (or the last index of a shorter list). */
  const FallbackIndex: int := 4

  /**
   * `indexOf(1.0)` if found, else `Math.min(4, length - 1)`; -1 for an
   * empty list, whose element read is then `undefined`.
   */
  function DefaultBetIndex(betList: seq<real>): (i: int)
    ensures PreferredBet in betList ==>
      0 <= i < |betList| && betList[i] == PreferredBet
      && forall j :: 0 <= j < i ==> betList[j] != PreferredBet
    ensures PreferredBet !in betList ==> i == Min(FallbackIndex, |betList| - 1)
    ensures |betList| > 0 <==> 0 <= i < |betList|
    ensures |betList| == 0 ==> i == -1
  {
    var idx := IndexOf(betList, PreferredBet);
    if idx != -1 then idx else Min(FallbackIndex, |betList| - 1)
  }

  /** The selected index is a valid index and the amount is the bet stored there. */
  predicate Consistent(betList: seq<real>, index: int, amount: Option<real>)
  {
    0 <= index < |betList| && amount == Some(betList[index])
  }

  /** `Math.max(0, Math.min(length - 1, index))`. */
  function ClampIndex(index: int, length: nat): (r: int)
    ensures length > 0 ==> 0 <= r < length
    ensures length > 0 && 0 <= index < length ==> r == index
    ensures length > 0 && index < 0 ==> r == 0
    ensures length > 0 && index >= length ==> r == length - 1
    ensures length == 0 ==> r == 0
  {
    Max(0, Min(length - 1, index))
  }

  /** Clamping keeps the order of indices. */
  lemma ClampIndexMonotone(i: int, j: int, length: nat)
    requires i <= j
    ensures ClampIndex(i, length) <= ClampIndex(j, length)
  {
  }
}

=== FILE: cents.dfy ===
/**
 * Currency rounding. The game stores money as JavaScript numbers and rounds
 * to the cent with `Math.floor(x * 100) / 100` (payouts) or
 * `Math.round(x * 100) / 100` (reports). Here money is an exact `real`, so
 * both roundings are exact; binary floating-point error is not modelled.
 */
module Cents {

  /** `x` is a whole number of cents. */
  predicate WholeCents(x: real)
  {
    (x * 100.0).Floor as real == x * 100.0
  }

  /** `Math.floor(x * 100) / 100`: the largest whole-cent amount not above `x`. */
  function FloorToCent(x: real): (r: real)
    ensures WholeCents(r)
    ensures r <= x < r + 0.01
  {
    (x * 100.0).Floor as real / 100.0
  }

  /**
   * `Math.round(x * 100) / 100`. JavaScript's `Math.round` sends halves
   * towards +infinity, so this is the floor of `x * 100 + 0.5`.
   */
  function RoundToCent(x: real): (r: real)
    ensures WholeCents(r)
    ensures r - 0.005 <= x < r + 0.005
  {
    (x * 100.0 + 0.5).Floor as real / 100.0
  }

  /** Flooring is monotone. */
  lemma FloorToCentMonotone(x: real, y: real)
    requires x <= y
    ensures FloorToCent(x) <= FloorToCent(y)
  {
    assert (x * 100.0).Floor <= (y * 100.0).Floor;
  }

  /** Rounding is monotone. */
  lemma RoundToCentMonotone(x: real, y: real)
    requires x <= y
    ensures RoundToCent(x) <= RoundToCent(y)
  {
    assert (x * 100.0 + 0.5).Floor <= (y * 100.0 + 0.5).Floor;
  }

  /** Both roundings leave a whole-cent amount as it is. */
  lemma WholeCentsFixed(x: real)
    requires WholeCents(x)
    ensures FloorToCent(x) == x
    ensures RoundToCent(x) == x
  {
    var k := (x * 100.0).Floor;
    assert (x * 100.0 + 0.5).Floor == k;
  }

  lemma MulLess(a: real, b: real, k: real)
    requires a < b && k > 0.0
    ensures a * k < b * k
  {
    assert b * k - a * k == (b - a) * k;
  }

  lemma MulLessEq(a: real, b: real, k: real)
    requires a <= b && k >= 0.0
    ensures a * k <= b * k
  {
    assert b * k - a * k == (b - a) * k;
  }
}

=== FILE: common.dfy ===
/**
 * Shared building blocks: optional values (JavaScript `undefined`), results
 * carrying an HTTP-style error, and the two array reads every part of the
 * game uses — indexing that may fall off the array and `indexOf`.
 */
module Common {

  /** A value that may be missing; `None` stands for JavaScript's `undefined`. */
  datatype Option<+T> = None | Some(value: T)

  /** The error answers a controller sends back instead of a result. */
  datatype ApiError =
    | BadRequest(message: string)   // HTTP 400
    | NotFound(message: string)     // HTTP 404

  datatype Result<+T> = Ok(value: T) | Err(error: ApiError)

  /** JavaScript `a[i]`: the element when `i` is a valid index, otherwise `undefined`. */
  function At<T>(a: seq<T>, i: int): Option<T>
  {
    if 0 <= i < |a| then Some(a[i]) else None
  }

  /** JavaScript `a.indexOf(x)`: the first index holding `x`, or -1 when there is none. */
  function IndexOf<T(==)>(a: seq<T>, x: T): (r: int)
    ensures r == -1 <==> x !in a
    ensures r != -1 ==> 0 <= r < |a| && a[r] == x
    ensures forall j :: 0 <= j < r ==> a[j] != x
  {
    if |a| == 0 then -1
    else if a[0] == x then 0
    else
      var k := IndexOf(a[1..], x);
      if k == -1 then -1 else k + 1
  }

  /** Appending an element does not move the first occurrence of anything already present. */
  lemma {:induction false} IndexOfSnoc<T>(a: seq<T>, x: T, y: T)
    ensures y in a ==> IndexOf(a + [x], y) == IndexOf(a, y)
    ensures y !in a && y == x ==> IndexOf(a + [x], y) == |a|
  {
    if |a| > 0 && a[0] != y {
      assert (a + [x])[1..] == a[1..] + [x];
      IndexOfSnoc(a[1..], x, y);
    }
  }

  /** A value `Math.random()` can return. */
  predicate IsDraw(x: real) { 0.0 <= x < 1.0 }

  function Min(a: int, b: int): int { if a <= b then a else b }

  function Max(a: int, b: int): int { if a >= b then a else b }
}

=== FILE: defaults.dfy ===
/** The server's built-in configuration values (backend/src/config/index.ts). */
module Defaults {

  /** Bet amounts offered when no configuration row has been stored. */
  const DefaultBetList: seq<real> := [
    0.20, 0.40, 0.60, 0.80,
    1.00, 1.20, 1.40, 1.60, 1.80, 2.00,
    3.00, 4.00, 5.00, 6.00, 7.00, 8.00, 9.00, 10.00,
    15.00, 20.00, 25.00, 30.00, 35.00, 40.00, 45.00, 50.00
  ]

  /** Target return-to-player used when no configuration row has been stored. */
  const DefaultRtp: real := 0.96
}

=== FILE: facade.dfy ===
/**
 * The message hub of the client (frontend/src/puremvc/core.ts): named
 * proxies holding data, named mediators listening for notification names,
 * commands bound to notification names, and the observer lists through
 * which a notification reaches them. The hub is a value threaded through
 * the operations; callbacks are an effect on that value.
 */
module Facade {
  import opened Common

  /** Which callback an observer runs. */
  datatype NotifyMethod = HandleNotification | ExecuteCommand

  /**
   * The `this` an observer is bound to. A mediator is identified by its
   * name: the hub never holds two mediators of one name.
   */
  datatype Context = MediatorCtx(name: string) | FacadeCtx

  datatype Observer = Observer(notifyMethod: NotifyMethod, context: Context)

  /** A mediator and the notification names it lists as interests. */
  datatype Mediator = Mediator(name: string, interests: seq<string>)

  datatype Proxy<D> = Proxy(name: string, data: D)

  /** The four maps of the hub; a command is known by the name of its class. */
  datatype Hub<D> = Hub(
    proxies: map<string, Proxy<D>>,
    mediators: map<string, Mediator>,
    commands: map<string, string>,
    observers: map<string, seq<Observer>>)

  function EmptyHub<D>(): Hub<D>
  {
    Hub(map[], map[], map[], map[])
  }

  /** The observers a notification of `name` reaches; `[]` when none was ever registered. */
  function ObserversOf<D>(h: Hub<D>, name: string): seq<Observer>
  {
    if name in h.observers then h.observers[name] else []
  }

  /** The observer every command registration installs. */
  const CommandObserver: Observer := Observer(ExecuteCommand, FacadeCtx)

  // ---------------------------------------------------------------- observers

  /** `registerObserver`: append to the list for `name`, creating it if absent. */
  function RegisterObserver<D>(h: Hub<D>, name: string, o: Observer): (r: Hub<D>)
    ensures ObserversOf(r, name) == ObserversOf(h, name) + [o]
    ensures forall n :: n != name ==> ObserversOf(r, n) == ObserversOf(h, n)
    ensures r.proxies == h.proxies && r.mediators == h.mediators && r.commands == h.commands
  {
    h.(observers := h.observers[name := ObserversOf(h, name) + [o]])
  }

  /** The observers not bound to `ctx`, in their original order. */
  function Without(obs: seq<Observer>, ctx: Context): (r: seq<Observer>)
    ensures forall o :: o in r <==> o in obs && o.context != ctx
    ensures |r| <= |obs|
    ensures (forall i :: 0 <= i < |obs| ==> obs[i].context != ctx) ==> r == obs
    decreases |obs|
  {
    if |obs| == 0 then []
    else if obs[0].context == ctx then Without(obs[1..], ctx)
    else [obs[0]] + Without(obs[1..], ctx)
  }

  /** Filtering distributes over concatenation. */
  lemma {:induction false} WithoutAppend(a: seq<Observer>, b: seq<Observer>, ctx: Context)
    ensures Without(a + b, ctx) == Without(a, ctx) + Without(b, ctx)
    decreases |a|
  {
    if |a| == 0 {
      assert a + b == b;
    } else {
      assert (a + b)[0] == a[0];
      assert (a + b)[1..] == a[1..] + b;
      WithoutAppend(a[1..], b, ctx);
    }
  }

  /** `removeObserver`: drop the observers bound to `ctx` from the list for `name`, if there is one. */
  function RemoveObserver<D>(h: Hub<D>, name: string, ctx: Context): (r: Hub<D>)
    ensures name !in h.observers ==> r == h
    ensures ObserversOf(r, name) == Without(ObserversOf(h, name), ctx)
    ensures forall n :: n != name ==> ObserversOf(r, n) == ObserversOf(h, n)
    ensures r.proxies == h.proxies && r.mediators == h.mediators && r.commands == h.commands
  {
    if name in h.observers then h.(observers := h.observers[name := Without(h.observers[name], ctx)])
    else h
  }

  // ---------------------------------------------------------------- mediators

  /** How often `name` occurs among `interests`. */
  function Occurrences(interests: seq<string>, name: string): nat
    decreases |interests|
  {
    if |interests| == 0 then 0
    else Occurrences(interests[..|interests| - 1], name)
         + (if interests[|interests| - 1] == name then 1 else 0)
  }

  function Repeat(o: Observer, n: nat): (r: seq<Observer>)
    ensures |r| == n && forall i :: 0 <= i < n ==> r[i] == o
  {
    seq(n, _ => o)
  }

  lemma AppendAssoc(a: seq<Observer>, b: seq<Observer>, c: seq<Observer>)
    ensures (a + b) + c == a + (b + c)
  {
  }

  lemma RepeatSnoc(o: Observer, k: nat)
    ensures Repeat(o, k) + [o] == Repeat(o, k + 1)
  {
  }

  /** The loop of `registerMediator`: one observer per interest, in order, repeats included. */
  function RegisterAll<D>(h: Hub<D>, interests: seq<string>, o: Observer): (r: Hub<D>)
    ensures forall n :: ObserversOf(r, n) == ObserversOf(h, n) + Repeat(o, Occurrences(interests, n))
    ensures r.proxies == h.proxies && r.mediators == h.mediators && r.commands == h.commands
    decreases |interests|
  {
    if |interests| == 0 then h
    else
      var init := interests[..|interests| - 1];
      var last := interests[|interests| - 1];
      var before := RegisterAll(h, init, o);
      var r := RegisterObserver(before, last, o);
      assert forall n :: ObserversOf(r, n) == ObserversOf(h, n) + Repeat(o, Occurrences(interests, n)) by {
        forall n ensures ObserversOf(r, n) == ObserversOf(h, n) + Repeat(o, Occurrences(interests, n)) {
          var k := Occurrences(init, n);
          assert ObserversOf(before, n) == ObserversOf(h, n) + Repeat(o, k);
          if n == last {
            assert Occurrences(interests, n) == k + 1;
            RepeatSnoc(o, k);
            assert ObserversOf(r, n) == (ObserversOf(h, n) + Repeat(o, k)) + [o];
            AppendAssoc(ObserversOf(h, n), Repeat(o, k), [o]);
          } else {
            assert Occurrences(interests, n) == k;
          }
        }
      }
      r
  }

  /**
   * `registerMediator`: a name already registered is ignored; otherwise the
   * mediator is stored and one observer bound to it joins the list of every
   * interest.
   */
  function RegisterMediator<D>(h: Hub<D>, m: Mediator): (r: Hub<D>)
    ensures m.name in h.mediators ==> r == h
    ensures m.name !in h.mediators ==>
      && r.mediators == h.mediators[m.name := m]
      && forall n :: ObserversOf(r, n)
           == ObserversOf(h, n) + Repeat(Observer(HandleNotification, MediatorCtx(m.name)), Occurrences(m.interests, n))
    ensures r.proxies == h.proxies && r.commands == h.commands
  {
    if m.name in h.mediators then h
    else RegisterAll(h.(mediators := h.mediators[m.name := m]), m.interests,
                     Observer(HandleNotification, MediatorCtx(m.name)))
  }

  /** `retrieveMediator`. */
  function RetrieveMediator<D>(h: Hub<D>, name: string): (r: Option<Mediator>)
    ensures r.Some? <==> name in h.mediators
    ensures r.Some? ==> r.value == h.mediators[name]
  {
    if name in h.mediators then Some(h.mediators[name]) else None
  }

  /** The loop of `removeMediator`: strip the mediator's observers from each interest's list. */
  function RemoveAll<D>(h: Hub<D>, interests: seq<string>, ctx: Context): (r: Hub<D>)
    ensures forall n :: n in interests ==> ObserversOf(r, n) == Without(ObserversOf(h, n), ctx)
    ensures forall n :: n !in interests ==> ObserversOf(r, n) == ObserversOf(h, n)
    ensures r.proxies == h.proxies && r.mediators == h.mediators && r.commands == h.commands
    decreases |interests|
  {
    if |interests| == 0 then h
    else
      var r := RemoveAll(RemoveObserver(h, interests[0], ctx), interests[1..], ctx);
      assert forall n :: n in interests <==> n == interests[0] || n in interests[1..];
      WithoutTwice(ObserversOf(h, interests[0]), ctx);
      r
  }

  lemma WithoutTwice(obs: seq<Observer>, ctx: Context)
    ensures Without(Without(obs, ctx), ctx) == Without(obs, ctx)
  {
  }

  /**
   * `removeMediator`: when the name is registered, its observers leave the
   * lists of its interests and it leaves the map; the removed mediator is
   * returned (`None` for `undefined`).
   */
  function RemoveMediator<D>(h: Hub<D>, name: string): (r: (Hub<D>, Option<Mediator>))
    ensures r.1 == RetrieveMediator(h, name)
    ensures name !in h.mediators ==> r.0 == h
    ensures name !in r.0.mediators && r.0.mediators == h.mediators - {name}
    ensures name in h.mediators ==>
      forall n :: ObserversOf(r.0, n) ==
        if n in h.mediators[name].interests then Without(ObserversOf(h, n), MediatorCtx(name))
        else ObserversOf(h, n)
    ensures name in h.mediators ==>
      forall n :: n in h.mediators[name].interests ==>
        forall o :: o in ObserversOf(r.0, n) ==> o.context != MediatorCtx(name)
    ensures r.0.proxies == h.proxies && r.0.commands == h.commands
  {
    if name in h.mediators then
      var m := h.mediators[name];
      var stripped := RemoveAll(h, m.interests, MediatorCtx(name));
      (stripped.(mediators := stripped.mediators - {name}), Some(m))
    else
      assert h.mediators - {name} == h.mediators;
      (h, None)
  }

  /** No observer anywhere is bound to the mediator named `name`. */
  predicate Unbound<D>(h: Hub<D>, name: string)
  {
    forall n :: n in h.observers ==> forall o :: o in h.observers[n] ==> o.context != MediatorCtx(name)
  }

  /**
   * Registering a new mediator and then removing it gives back the
   * mediator map and every observer list (as seen by a notification;
   * an emptied list may stay behind under its key).
   */
  lemma RegisterThenRemoveMediator<D>(h: Hub<D>, m: Mediator)
    requires m.name !in h.mediators && Unbound(h, m.name)
    ensures var r := RemoveMediator(RegisterMediator(h, m), m.name).0;
      && r.mediators == h.mediators
      && r.proxies == h.proxies && r.commands == h.commands
      && forall n :: ObserversOf(r, n) == ObserversOf(h, n)
  {
    var o := Observer(HandleNotification, MediatorCtx(m.name));
    var g := RegisterMediator(h, m);
    var r := RemoveMediator(g, m.name).0;
    assert g.mediators[m.name] == m;
    assert r.mediators == h.mediators by {
      assert h.mediators[m.name := m] - {m.name} == h.mediators;
    }
    forall n ensures ObserversOf(r, n) == ObserversOf(h, n) {
      var before := ObserversOf(h, n);
      var k := Occurrences(m.interests, n);
      assert ObserversOf(g, n) == before + Repeat(o, k);
      if n in m.interests {
        assert ObserversOf(r, n) == Without(before + Repeat(o, k), o.context);
        WithoutAppend(before, Repeat(o, k), o.context);
        WithoutRepeat(o, k);
        UnboundList(h, n, m.name);
        assert Without(before, o.context) == before;
      } else {
        OccurrencesAbsent(m.interests, n);
        assert before + Repeat(o, 0) == before;
      }
    }
  }

  /** In a hub with no observer bound to mediator `name`, filtering that mediator out of any list changes nothing. */
  lemma UnboundList<D>(h: Hub<D>, n: string, name: string)
    requires Unbound(h, name)
    ensures Without(ObserversOf(h, n), MediatorCtx(name)) == ObserversOf(h, n)
  {
    var obs := ObserversOf(h, n);
    assert forall i :: 0 <= i < |obs| ==> obs[i].context != MediatorCtx(name) by {
      forall i | 0 <= i < |obs| ensures obs[i].context != MediatorCtx(name) {
        assert obs[i] in h.observers[n];
      }
    }
  }

  lemma {:induction false} WithoutRepeat(o: Observer, k: nat)
    ensures Without(Repeat(o, k), o.context) == []
  {
    if k > 0 {
      assert Repeat(o, k)[1..] == Repeat(o, k - 1);
      WithoutRepeat(o, k - 1);
    }
  }

  lemma {:induction false} OccurrencesAbsent(interests: seq<string>, name: string)
    requires name !in interests
    ensures Occurrences(interests, name) == 0
    decreases |interests|
  {
    if |interests| > 0 {
      OccurrencesAbsent(interests[..|interests| - 1], name);
    }
  }

  // ---------------------------------------------------------------- commands

  /**
   * `registerCommand`: the first registration for a name installs the
   * command observer; every registration (re)binds the command class.
   */
  function RegisterCommand<D>(h: Hub<D>, name: string, command: string): (r: Hub<D>)
    ensures r.commands == h.commands[name := command]
    ensures name !in h.commands ==> ObserversOf(r, name) == ObserversOf(h, name) + [CommandObserver]
    ensures name in h.commands ==> ObserversOf(r, name) == ObserversOf(h, name)
    ensures forall n :: n != name ==> ObserversOf(r, n) == ObserversOf(h, n)
    ensures r.proxies == h.proxies && r.mediators == h.mediators
  {
    var withObserver := if name !in h.commands then RegisterObserver(h, name, CommandObserver) else h;
    withObserver.(commands := withObserver.commands[name := command])
  }

  /** Rebinding a command never adds a second command observer: the last class wins. */
  lemma RegisterCommandTwice<D>(h: Hub<D>, name: string, c1: string, c2: string)
    requires name !in h.commands
    ensures var r := RegisterCommand(RegisterCommand(h, name, c1), name, c2);
      && ObserversOf(r, name) == ObserversOf(h, name) + [CommandObserver]
      && r.commands[name] == c2
  {
  }

  // ---------------------------------------------------------------- proxies

  /** `registerProxy`: store by name, replacing any proxy of that name. */
  function RegisterProxy<D>(h: Hub<D>, p: Proxy<D>): (r: Hub<D>)
    ensures r.proxies == h.proxies[p.name := p]
    ensures r.mediators == h.mediators && r.commands == h.commands && r.observers == h.observers
  {
    h.(proxies := h.proxies[p.name := p])
  }

  /** `retrieveProxy`; `None` is `undefined`. */
  function RetrieveProxy<D>(h: Hub<D>, name: string): (r: Option<Proxy<D>>)
    ensures r.Some? <==> name in h.proxies
    ensures r.Some? ==> r.value == h.proxies[name]
  {
    if name in h.proxies then Some(h.proxies[name]) else None
  }

  /** `removeProxy`: drop the proxy of that name if any and return it. */
  function RemoveProxy<D>(h: Hub<D>, name: string): (r: (Hub<D>, Option<Proxy<D>>))
    ensures r.1 == RetrieveProxy(h, name)
    ensures r.0.proxies == h.proxies - {name}
    ensures r.0.mediators == h.mediators && r.0.commands == h.commands && r.0.observers == h.observers
  {
    if name in h.proxies then (h.(proxies := h.proxies - {name}), Some(h.proxies[name]))
    else
      assert h.proxies - {name} == h.proxies;
      (h, None)
  }

  /** `hasProxy`. */
  function HasProxy<D>(h: Hub<D>, name: string): (b: bool)
    ensures b <==> RetrieveProxy(h, name).Some?
  {
    name in h.proxies
  }

  /** A registered proxy is retrieved by its name until it is removed; removal returns it. */
  lemma ProxyRoundTrip<D>(h: Hub<D>, p: Proxy<D>, other: string)
    ensures RetrieveProxy(RegisterProxy(h, p), p.name) == Some(p)
    ensures other != p.name ==> RetrieveProxy(RegisterProxy(h, p), other) == RetrieveProxy(h, other)
    ensures RemoveProxy(RegisterProxy(h, p), p.name).1 == Some(p)
    ensures !HasProxy(RemoveProxy(RegisterProxy(h, p), p.name).0, p.name)
  {
  }

  // ---------------------------------------------------------------- notification

  /** The hub after running `obs` in order, each callback acting on the hub as `effect` says. */
  function Deliver<D>(h: Hub<D>, obs: seq<Observer>, effect: (Hub<D>, Observer) -> Hub<D>): Hub<D>
    decreases |obs|
  {
    if |obs| == 0 then h else effect(Deliver(h, obs[..|obs| - 1], effect), obs[|obs| - 1])
  }

  /**
   * `notifyObservers`: run every observer on the list for `name` as it was
   * when the notification started. Observers added or removed by the
   * callbacks themselves do not change who is called this time.
   */
  method NotifyObservers<D>(h: Hub<D>, name: string, effect: (Hub<D>, Observer) -> Hub<D>)
    returns (r: Hub<D>, called: seq<Observer>)
    ensures called == ObserversOf(h, name)
    ensures r == Deliver(h, called, effect)
  {
    var copy := ObserversOf(h, name);
    r := h;
    called := [];
    var i := 0;
    while i < |copy|
      invariant 0 <= i <= |copy|
      invariant called == copy[..i]
      invariant r == Deliver(h, called, effect)
    {
      assert copy[..i + 1][..i] == copy[..i];
      r := effect(r, copy[i]);
      called := called + [copy[i]];
      i := i + 1;
    }
    assert copy[..|copy|] == copy;
  }

  /** A notification nobody listens to changes nothing. */
  lemma NotifyUnheard<D>(h: Hub<D>, name: string, effect: (Hub<D>, Observer) -> Hub<D>)
    requires ObserversOf(h, name) == []
    ensures Deliver(h, ObserversOf(h, name), effect) == h
  {
  }
}

=== FILE: game_controller.dfy ===
/**
 * The wager endpoints `launch` and `shoot` (backend/src/controllers/gameController.ts)
 * as pure functions: the request body, the stored bet list, the player's
 * stored balance and the engine's draws go in; an error answer or the
 * settlement (new balance, history row, response) comes out. Database
 * access and uuid generation are parameters: `freshRoundId` is the
 * eight-character id the endpoint would generate.
 */
module GameController {
  import opened Common
  import opened MathModel
  import Defaults

  /** JavaScript truthiness of an optional number field: present and not zero. */
  predicate Truthy(v: Option<real>)
  {
    v.Some? && v.value != 0.0
  }

  /** One row of the game history. */
  datatype GameRecord = GameRecord(
    roundId: string, betAmount: real, multiplier: real, winAmount: real,
    balAfter: real, gamePhase: string, result: string)

  /** The bet list a launch is checked against: the stored one, or the default when no row exists. */
  function BetListInEffect(stored: Option<seq<real>>): seq<real>
  {
    match stored
    case Some(list) => list
    case None => Defaults.DefaultBetList
  }

  // ---------------------------------------------------------------- launch

  datatype LaunchRequest = LaunchRequest(betAmount: Option<real>, springMultiplier: Option<real>)

  datatype LaunchReply = LaunchReply(
    roundId: string, isWin: bool, winAmount: real, launchMultiplier: real, balance: real)

  /** A successful launch: the balance written back, the history row and the response body. */
  datatype LaunchSettlement = LaunchSettlement(balance: real, record: GameRecord, reply: LaunchReply)

  /** Both required fields are present and non-zero. */
  predicate LaunchFieldsPresent(req: LaunchRequest)
  {
    Truthy(req.betAmount) && Truthy(req.springMultiplier)
  }

  /** The required fields are present and the bet is on the list in effect. */
  predicate LaunchBetValid(req: LaunchRequest, storedBetList: Option<seq<real>>)
  {
    LaunchFieldsPresent(req) && req.betAmount.value in BetListInEffect(storedBetList)
  }

  /** Every guard of `launch` passes. */
  predicate LaunchAccepted(req: LaunchRequest, storedBetList: Option<seq<real>>, playerBalance: Option<real>)
  {
    && LaunchBetValid(req, storedBetList)
    && playerBalance.Some?
    && playerBalance.value >= req.betAmount.value
  }

  function Launch(req: LaunchRequest, storedBetList: Option<seq<real>>, playerBalance: Option<real>,
                  winDraw: real, ladderDraw: real, freshRoundId: string): (r: Result<LaunchSettlement>)
    ensures !LaunchFieldsPresent(req) ==>
      r == Err(BadRequest("betAmount and springMultiplier are required"))
    ensures LaunchFieldsPresent(req) && !LaunchBetValid(req, storedBetList) ==>
      r == Err(BadRequest("Invalid bet amount"))
    ensures LaunchBetValid(req, storedBetList) && playerBalance.None? ==>
      r == Err(NotFound("Player not found"))
    ensures (LaunchBetValid(req, storedBetList) && playerBalance.Some?
             && playerBalance.value < req.betAmount.value) ==>
      r == Err(BadRequest("Insufficient balance"))
    ensures r.Ok? <==> LaunchAccepted(req, storedBetList, playerBalance)
    ensures r.Ok? ==>
      var s := r.value;
      var bet := req.betAmount.value;
      && s.balance == playerBalance.value - bet + s.reply.winAmount
      && (s.reply.isWin <==> winDraw < HitRate)
      && s.reply.launchMultiplier == (if s.reply.isWin then LaunchMultiplier(ladderDraw) else 0.0)
      && (s.reply.isWin ==> s.reply.winAmount == bet * s.reply.launchMultiplier)
      && (!s.reply.isWin ==> s.reply.winAmount == 0.0)
      && s.reply.balance == s.balance
      && s.reply.roundId == freshRoundId
      && s.record == GameRecord(freshRoundId, bet, req.springMultiplier.value, s.reply.winAmount,
                                s.balance, "launch", if s.reply.isWin then "win" else "lose")
    ensures r.Ok? && r.value.reply.winAmount >= 0.0 ==> r.value.balance >= 0.0
  {
    if !LaunchFieldsPresent(req) then
      Err(BadRequest("betAmount and springMultiplier are required"))
    else if req.betAmount.value !in BetListInEffect(storedBetList) then
      Err(BadRequest("Invalid bet amount"))
    else if playerBalance.None? then
      Err(NotFound("Player not found"))
    else if playerBalance.value < req.betAmount.value then
      Err(BadRequest("Insufficient balance"))
    else
      var bet := req.betAmount.value;
      var afterBet := playerBalance.value - bet;
      var result := GetLaunchResult(bet, winDraw, ladderDraw);
      var finalBalance := afterBet + result.winAmount;
      var record := GameRecord(freshRoundId, bet, req.springMultiplier.value, result.winAmount,
                               finalBalance, "launch", if result.isWin then "win" else "lose");
      Ok(LaunchSettlement(finalBalance, record,
         LaunchReply(freshRoundId, result.isWin, result.winAmount, result.multiplier, finalBalance)))
  }

  // ---------------------------------------------------------------- shoot

  datatype ShootRequest = ShootRequest(
    betAmount: Option<real>, currentMultiplier: Option<real>,
    pinataHits: Option<int>, roundId: Option<string>)

  /** The draws one shoot request consumes: the two classification draws and, on a small win, the two amount draws. */
  datatype ShootDraws = ShootDraws(roll: real, subRoll: real, bonusDraw: real, fractionDraw: real)

  datatype ShootReply = ShootReply(roundId: string, result: ShootOutcome, winAmount: real, balance: real)

  /** A successful shot: the advanced engine, the balance written back, the history row and the response. */
  datatype ShootSettlement = ShootSettlement(engine: Engine, balance: real, record: GameRecord, reply: ShootReply)

  /** The outcome names the engine reports. */
  function OutcomeName(o: ShootOutcome): string
  {
    match o
    case Jackpot => "JACKPOT"
    case SmallWin => "SMALL_WIN"
    case BadExplode => "BAD_EXPLODE"
    case Miss => "MISS"
  }

  /** The result column of a shoot row. */
  function ResultName(o: ShootOutcome): string
  {
    match o
    case Jackpot => "jackpot"
    case SmallWin => "small_win"
    case BadExplode => "bad_explode"
    case Miss => "miss"
  }

  /** ASCII `toLowerCase`. */
  function ToLower(s: string): string
  {
    seq(|s|, i requires 0 <= i < |s| => LowerChar(s[i]))
  }

  function LowerChar(c: char): char
  {
    if 'A' <= c <= 'Z' then (c as int + 32) as char else c
  }

  /** The stored result string is the lower-cased outcome name. */
  lemma ResultNameIsLowerCase(o: ShootOutcome)
    ensures ResultName(o) == ToLower(OutcomeName(o))
  {
  }

  /** What a shot pays: the locked multiplier on a jackpot, a small-win amount, or nothing. */
  function Payout(o: ShootOutcome, bet: real, currentMultiplier: real, draws: ShootDraws): (w: real)
    ensures o == Jackpot ==> w == bet * currentMultiplier
    ensures o == SmallWin && IsDraw(draws.fractionDraw) && bet >= 0.0 ==> 0.0 <= w <= bet * 1.5
    ensures (o == BadExplode || o == Miss) ==> w == 0.0
  {
    match o
    case Jackpot => bet * currentMultiplier
    case SmallWin => GetSmallWinAmount(bet, draws.bonusDraw, draws.fractionDraw)
    case BadExplode => 0.0
    case Miss => 0.0
  }

  /** Bet and multiplier are present and non-zero; the hit count is present (zero is accepted). */
  predicate ShootFieldsPresent(req: ShootRequest)
  {
    Truthy(req.betAmount) && Truthy(req.currentMultiplier) && req.pinataHits.Some?
  }

  /** Every guard of `shoot` passes; unlike `launch` there is no bet-list check. */
  predicate ShootAccepted(req: ShootRequest, playerBalance: Option<real>)
  {
    && ShootFieldsPresent(req)
    && playerBalance.Some?
    && playerBalance.value >= req.betAmount.value
  }

  /** `roundId || uuid`: a supplied non-empty id is kept. */
  function RoundIdFor(supplied: Option<string>, freshRoundId: string): (id: string)
    ensures supplied.Some? && supplied.value != "" ==> id == supplied.value
    ensures supplied.None? || supplied.value == "" ==> id == freshRoundId
    ensures id == "" ==> freshRoundId == ""
  {
    if supplied.Some? && supplied.value != "" then supplied.value else freshRoundId
  }

  /** The `shoot` endpoint as written. */
  function Shoot(e: Engine, req: ShootRequest, playerBalance: Option<real>,
                 sine: real -> real, draws: ShootDraws, freshRoundId: string): (r: Result<ShootSettlement>)
    requires -1.0 <= sine(e.cyclePhase + PhaseStep) <= 1.0
    ensures !ShootFieldsPresent(req) ==> r == Err(BadRequest("Missing required fields"))
    ensures ShootFieldsPresent(req) && playerBalance.None? ==> r == Err(NotFound("Player not found"))
    ensures (ShootFieldsPresent(req) && playerBalance.Some?
             && playerBalance.value < req.betAmount.value) ==>
      r == Err(BadRequest("Insufficient balance"))
    ensures r.Ok? <==> ShootAccepted(req, playerBalance)
    ensures r.Ok? ==>
      var s := r.value;
      var bet := req.betAmount.value;
      var mul := req.currentMultiplier.value;
      && s.engine == GetShootResult(e, mul, req.pinataHits.value, sine, draws.roll, draws.subRoll).0
      && s.engine.spinCount == e.spinCount + 1
      && s.engine.cyclePhase == e.cyclePhase + 0.2
      && s.engine.targetRTP == e.targetRTP
      && s.reply.result == GetShootResult(e, mul, req.pinataHits.value, sine, draws.roll, draws.subRoll).1
      && s.balance == playerBalance.value - bet + s.reply.winAmount
      && (s.reply.result == Jackpot ==> s.reply.winAmount == bet * mul)
      && (s.reply.result == SmallWin ==>
            s.reply.winAmount == GetSmallWinAmount(bet, draws.bonusDraw, draws.fractionDraw))
      && (s.reply.result in {BadExplode, Miss} ==> s.reply.winAmount == 0.0)
      && s.reply.balance == s.balance
      && s.reply.roundId == RoundIdFor(req.roundId, freshRoundId)
      && s.record == GameRecord(s.reply.roundId, bet, mul, s.reply.winAmount, s.balance,
                                "shoot", ToLower(OutcomeName(s.reply.result)))
    ensures r.Ok? && r.value.reply.winAmount >= 0.0 ==> r.value.balance >= 0.0
  {
    if !ShootFieldsPresent(req) then
      Err(BadRequest("Missing required fields"))
    else if playerBalance.None? then
      Err(NotFound("Player not found"))
    else if playerBalance.value < req.betAmount.value then
      Err(BadRequest("Insufficient balance"))
    else
      var bet := req.betAmount.value;
      var mul := req.currentMultiplier.value;
      var afterBet := playerBalance.value - bet;
      var (e', outcome) := GetShootResult(e, mul, req.pinataHits.value, sine, draws.roll, draws.subRoll);
      var winAmount := Payout(outcome, bet, mul, draws);
      var newBalance := afterBet + winAmount;
      var roundId := RoundIdFor(req.roundId, freshRoundId);
      ResultNameIsLowerCase(outcome);
      var record := GameRecord(roundId, bet, mul, winAmount, newBalance, "shoot", ResultName(outcome));
      Ok(ShootSettlement(e', newBalance, record, ShootReply(roundId, outcome, winAmount, newBalance)))
  }

  /**
   * As written, `shoot` takes a negative bet: only `balance < bet` is
   * checked. A missed shot with a bet of -5 on a balance of 100 leaves
   * 105, so losing a shot pays the player.
   */
  lemma ShootNegativeBetCredits(e: Engine, sine: real -> real)
    requires -1.0 <= sine(e.cyclePhase + PhaseStep) <= 1.0
    ensures
      var r := Shoot(e, ShootRequest(Some(-5.0), Some(2.0), Some(0), None), Some(100.0),
                     sine, ShootDraws(0.99, 0.99, 0.5, 0.5), "a1b2c3d4");
      r.Ok? && r.value.reply.result == Miss && r.value.balance == 105.0
  {
    var luck := LuckFactor(sine(e.cyclePhase + 0.2));
    JackpotChanceBounds(e.targetRTP, 2.0, luck);
    assert ExplodeRisk(2.0, 0) / luck <= 0.025;
  }

  /**
   * `shoot` with the bet-list check `launch` makes: a bet that is not
   * offered is refused before the engine is consulted.
   */
  function ShootChecked(e: Engine, req: ShootRequest, storedBetList: Option<seq<real>>,
                        playerBalance: Option<real>, sine: real -> real, draws: ShootDraws,
                        freshRoundId: string): (r: Result<ShootSettlement>)
    requires -1.0 <= sine(e.cyclePhase + PhaseStep) <= 1.0
    ensures ShootFieldsPresent(req) && req.betAmount.value !in BetListInEffect(storedBetList) ==>
      r == Err(BadRequest("Invalid bet amount"))
    ensures r.Ok? <==> ShootAccepted(req, playerBalance) && req.betAmount.value in BetListInEffect(storedBetList)
    ensures r.Ok? ==> r == Shoot(e, req, playerBalance, sine, draws, freshRoundId)
  {
    if ShootFieldsPresent(req) && req.betAmount.value !in BetListInEffect(storedBetList) then
      Err(BadRequest("Invalid bet amount"))
    else
      Shoot(e, req, playerBalance, sine, draws, freshRoundId)
  }

  /** Every amount on the list is a real stake. */
  predicate AllPositive(list: seq<real>)
  {
    forall i :: 0 <= i < |list| ==> list[i] > 0.0
  }

  lemma DefaultBetListPositive()
    ensures AllPositive(Defaults.DefaultBetList)
  {
  }

  /**
   * With the bet-list check and a list of positive stakes, a shot that
   * explodes or misses always costs the player the bet, and a shot that
   * pays never leaves the balance negative.
   */
  lemma ShootCheckedLossCosts(e: Engine, req: ShootRequest, storedBetList: Option<seq<real>>,
                              playerBalance: Option<real>, sine: real -> real, draws: ShootDraws,
                              freshRoundId: string)
    requires -1.0 <= sine(e.cyclePhase + PhaseStep) <= 1.0
    requires AllPositive(BetListInEffect(storedBetList))
    requires IsDraw(draws.fractionDraw)
    ensures
      var r := ShootChecked(e, req, storedBetList, playerBalance, sine, draws, freshRoundId);
      && (r.Ok? && r.value.reply.result in {BadExplode, Miss} ==>
            r.value.balance == playerBalance.value - req.betAmount.value < playerBalance.value)
      && (r.Ok? && r.value.reply.result == SmallWin ==> r.value.balance >= 0.0)
  {
    var r := ShootChecked(e, req, storedBetList, playerBalance, sine, draws, freshRoundId);
    if r.Ok? {
      var list := BetListInEffect(storedBetList);
      var i := IndexOf(list, req.betAmount.value);
      assert list[i] > 0.0;
    }
  }
}

=== FILE: game_engine.dfy ===
/**
 * The pure decisions inside the canvas engine (frontend/src/game/GameEngine.ts):
 * the weighted draw of spring multipliers, the spring colour ladder, the
 * five chips shown from a long bet list, the engine's own copy of the
 * selected bet, and when the auto-play bot launches and shoots. Drawing,
 * physics, audio and timers are not modelled.
 */
module GameEngine {
  import opened Common
  import opened BetSelection
  import GameProxy

  /** One kind of spring on the roadmap; `caption` is the source's `label`, a reserved word in Dafny. */
  datatype RoadmapItem = RoadmapItem(
    mul: real, color: string, caption: string, weight: real, textColor: string, glow: bool)

  /** `MULTIPLIER_TYPES`, in ascending order of multiplier. */
  const MultiplierTypes: seq<RoadmapItem> := [
    RoadmapItem(2.0, "#22c55e", "x2", 400.0, "#fff", false),
    RoadmapItem(5.0, "#fbbf24", "x5", 300.0, "#000", false),
    RoadmapItem(10.0, "#f97316", "x10", 150.0, "#fff", false),
    RoadmapItem(25.0, "#ef4444", "x25", 80.0, "#fff", false),
    RoadmapItem(50.0, "#db2777", "x50", 40.0, "#fff", false),
    RoadmapItem(100.0, "#9333ea", "x100", 20.0, "#fff", true),
    RoadmapItem(500.0, "#2563eb", "x500", 8.0, "#fff", true),
    RoadmapItem(1000.0, "#ffffff", "x1K", 6.0, "#000", true),
    RoadmapItem(10000.0, "#00ffff", "MAX", 2.0, "#000", true)
  ]

  // ---------------------------------------------------------------- weighted draw

  predicate NonNegativeWeights(types: seq<RoadmapItem>)
  {
    forall i :: 0 <= i < |types| ==> types[i].weight >= 0.0
  }

  function TotalWeight(types: seq<RoadmapItem>): real
    decreases |types|
  {
    if |types| == 0 then 0.0 else types[0].weight + TotalWeight(types[1..])
  }

  /** The sum of the first `k` weights. */
  function Cumulative(types: seq<RoadmapItem>, k: nat): real
    requires k <= |types|
    decreases k
  {
    if k == 0 then 0.0 else types[0].weight + Cumulative(types[1..], k - 1)
  }

  /**
   * The loop of `generateWeightedMultiplier`: walk the types, returning the
   * first whose weight exceeds what is left of the draw; `None` when the
   * walk falls off the end.
   */
  function PickWeighted(types: seq<RoadmapItem>, rand: real): (r: Option<RoadmapItem>)
    ensures r.Some? ==> r.value in types
    decreases |types|
  {
    if |types| == 0 then None
    else if rand < types[0].weight then Some(types[0])
    else PickWeighted(types[1..], rand - types[0].weight)
  }

  /** `generateWeightedMultiplier`, with `draw` the value of `Math.random()`; the first type is the fallback. */
  function GenerateWeightedMultiplier(draw: real): (t: RoadmapItem)
    ensures t in MultiplierTypes
  {
    PickOrFirst(MultiplierTypes, draw)
  }

  /** Scale the draw by the total weight and pick; fall back to the first type. */
  function PickOrFirst(types: seq<RoadmapItem>, draw: real): (t: RoadmapItem)
    requires |types| > 0
    ensures t in types
  {
    match PickWeighted(types, draw * TotalWeight(types))
    case Some(t) => t
    case None => types[0]
  }

  lemma {:induction false} CumulativeNonNegative(types: seq<RoadmapItem>, k: nat)
    requires k <= |types| && NonNegativeWeights(types)
    ensures Cumulative(types, k) >= 0.0
    decreases k
  {
    if k > 0 {
      CumulativeNonNegative(types[1..], k - 1);
    }
  }

  /**
   * The type returned is the one whose band of running weight holds the
   * draw: type `i` is picked exactly when the draw lies in
   * [weights before i, weights up to and including i).
   */
  lemma {:induction false} PickWeightedBand(types: seq<RoadmapItem>, rand: real, i: nat)
    requires NonNegativeWeights(types)
    requires i < |types|
    requires Cumulative(types, i) <= rand < Cumulative(types, i + 1)
    ensures PickWeighted(types, rand) == Some(types[i])
    decreases i
  {
    if i > 0 {
      CumulativeNonNegative(types[1..], i - 1);
      assert rand >= types[0].weight;
      PickWeightedBand(types[1..], rand - types[0].weight, i - 1);
    }
  }

  /** A draw below the total weight always lands on some type; the fallback is never used. */
  lemma {:induction false} PickWeightedTotal(types: seq<RoadmapItem>, rand: real)
    requires NonNegativeWeights(types)
    requires 0.0 <= rand < TotalWeight(types)
    ensures PickWeighted(types, rand).Some?
    decreases |types|
  {
    if |types| > 0 && rand >= types[0].weight {
      PickWeightedTotal(types[1..], rand - types[0].weight);
    }
  }

  /** For any `Math.random()` value the weighted draw picks the type of the band the scaled draw falls in. */
  lemma GenerateWeightedMultiplierBand(draw: real, i: nat)
    requires IsDraw(draw)
    requires i < |MultiplierTypes|
    requires Cumulative(MultiplierTypes, i) <= draw * 1006.0 < Cumulative(MultiplierTypes, i + 1)
    ensures GenerateWeightedMultiplier(draw) == MultiplierTypes[i]
  {
    MultiplierTotal();
    PickOrFirstBand(MultiplierTypes, draw, i);
  }

  lemma PickOrFirstBand(types: seq<RoadmapItem>, draw: real, i: nat)
    requires NonNegativeWeights(types)
    requires i < |types|
    requires Cumulative(types, i) <= draw * TotalWeight(types) < Cumulative(types, i + 1)
    ensures PickOrFirst(types, draw) == types[i]
  {
    PickWeightedBand(types, draw * TotalWeight(types), i);
  }

  lemma TotalWeightStep(types: seq<RoadmapItem>, k: nat)
    requires k < |types|
    ensures TotalWeight(types[k..]) == types[k].weight + TotalWeight(types[k + 1..])
  {
    assert types[k..][1..] == types[k + 1..];
  }

  /** The weights of the roadmap add up to 1006. */
  lemma MultiplierTotal()
    ensures TotalWeight(MultiplierTypes) == 1006.0
    ensures NonNegativeWeights(MultiplierTypes)
  {
    MultiplierWeightsNonNegative();
    MultiplierWeightSum();
  }

  lemma MultiplierWeightsNonNegative()
    ensures NonNegativeWeights(MultiplierTypes)
  {
  }

  lemma MultiplierWeightSum()
    ensures TotalWeight(MultiplierTypes) == 1006.0
  {
    var t := MultiplierTypes;
    assert TotalWeight(t[9..]) == 0.0;
    TotalWeightStep(t, 8);
    assert TotalWeight(t[8..]) == 2.0;
    TotalWeightStep(t, 7);
    assert TotalWeight(t[7..]) == 8.0;
    TotalWeightStep(t, 6);
    assert TotalWeight(t[6..]) == 16.0;
    TotalWeightStep(t, 5);
    assert TotalWeight(t[5..]) == 36.0;
    TotalWeightStep(t, 4);
    assert TotalWeight(t[4..]) == 76.0;
    TotalWeightStep(t, 3);
    assert TotalWeight(t[3..]) == 156.0;
    TotalWeightStep(t, 2);
    assert TotalWeight(t[2..]) == 306.0;
    TotalWeightStep(t, 1);
    assert TotalWeight(t[1..]) == 606.0;
    TotalWeightStep(t, 0);
    assert t[0..] == t;
  }

  /** The roadmap's x2 spring comes up exactly for draws below 400/1006. */
  lemma CommonestSpring(draw: real)
    requires IsDraw(draw)
    ensures GenerateWeightedMultiplier(draw).mul == 2.0 <==> draw * 1006.0 < 400.0
  {
    MultiplierTotal();
    var rand := draw * 1006.0;
    FirstBand(MultiplierTypes, rand);
    assert GenerateWeightedMultiplier(draw) == PickWeighted(MultiplierTypes, rand).value;
  }

  /** When no other type shares the first type's multiplier, that multiplier is drawn exactly in the first band. */
  lemma FirstBand(types: seq<RoadmapItem>, rand: real)
    requires NonNegativeWeights(types)
    requires |types| > 0
    requires 0.0 <= rand < TotalWeight(types)
    requires forall j :: 1 <= j < |types| ==> types[j].mul != types[0].mul
    ensures PickWeighted(types, rand).Some?
    ensures PickWeighted(types, rand).value.mul == types[0].mul <==> rand < types[0].weight
  {
    PickWeightedTotal(types, rand);
    if rand >= types[0].weight {
      var rest := types[1..];
      assert PickWeighted(types, rand) == PickWeighted(rest, rand - types[0].weight);
      assert forall x :: x in rest ==> x.mul != types[0].mul;
    }
  }

  // ---------------------------------------------------------------- spring colours

  /** `getSpringColor`: the colour of the highest multiplier threshold not above `mul`. */
  function SpringColor(mul: real): (c: string)
    ensures |c| == 7 && c[0] == '#'
    ensures c == "#22c55e" <==> mul < 5.0
    ensures mul >= 10000.0 <==> c == "#00ffff"
  {
    if mul >= 10000.0 then "#00ffff"
    else if mul >= 1000.0 then "#ffffff"
    else if mul >= 500.0 then "#2563eb"
    else if mul >= 100.0 then "#9333ea"
    else if mul >= 50.0 then "#db2777"
    else if mul >= 25.0 then "#ef4444"
    else if mul >= 10.0 then "#f97316"
    else if mul >= 5.0 then "#fbbf24"
    else "#22c55e"
  }

  /**
   * The colour ladder agrees with the roadmap: a multiplier between type
   * `i`'s multiplier and the next type's gets type `i`'s colour, and
   * anything below the second type (x5) gets the first type's green.
   */
  lemma SpringColorMatchesRoadmap(mul: real, i: nat)
    requires 0 < i < |MultiplierTypes|
    requires MultiplierTypes[i].mul <= mul
    requires i + 1 < |MultiplierTypes| ==> mul < MultiplierTypes[i + 1].mul
    ensures SpringColor(mul) == MultiplierTypes[i].color
    ensures mul < MultiplierTypes[1].mul ==> SpringColor(mul) == MultiplierTypes[0].color
  {
  }

  lemma SpringColorBelowFive(mul: real)
    requires mul < MultiplierTypes[1].mul
    ensures SpringColor(mul) == MultiplierTypes[0].color
  {
  }

  // ---------------------------------------------------------------- chips

  predicate Distinct(s: seq<real>)
  {
    forall i, j :: 0 <= i < j < |s| ==> s[i] != s[j]
  }

  /** `[...new Set(s)]`: first occurrences, in order. */
  function Dedupe(s: seq<real>): (r: seq<real>)
    ensures Distinct(r)
    ensures forall x :: x in r <==> x in s
    ensures |r| <= |s|
    ensures |s| > 0 ==> |r| > 0 && r[0] == s[0]
    ensures forall i, j :: 0 <= i < j < |r| ==> IndexOf(s, r[i]) < IndexOf(s, r[j])
    decreases |s|
  {
    if |s| == 0 then []
    else
      var init := s[..|s| - 1];
      var d := Dedupe(init);
      var x := s[|s| - 1];
      assert s == init + [x];
      assert forall y :: y in s <==> y in init || y == x;
      FirstOrderAfterSnoc(init, x, d);
      if x in d then d else d + [x]
  }

  /**
   * Appending `x` to a list keeps the first-occurrence order of values
   * already in it, and a new `x` comes after all of them.
   */
  lemma FirstOrderAfterSnoc(init: seq<real>, x: real, d: seq<real>)
    requires forall y :: y in d ==> y in init
    requires forall i, j :: 0 <= i < j < |d| ==> IndexOf(init, d[i]) < IndexOf(init, d[j])
    ensures forall i, j :: 0 <= i < j < |d| ==> IndexOf(init + [x], d[i]) < IndexOf(init + [x], d[j])
    ensures x !in init ==>
      forall i, j :: 0 <= i < j < |d + [x]| ==> IndexOf(init + [x], (d + [x])[i]) < IndexOf(init + [x], (d + [x])[j])
  {
    var s := init + [x];
    forall k | 0 <= k < |d| ensures IndexOf(s, d[k]) == IndexOf(init, d[k]) {
      IndexOfSnoc(init, x, d[k]);
    }
    if x !in init {
      IndexOfSnoc(init, x, x);
      forall i, j | 0 <= i < j < |d + [x]|
        ensures IndexOf(s, (d + [x])[i]) < IndexOf(s, (d + [x])[j])
      {
        if j == |d| {
          assert IndexOf(s, d[i]) == IndexOf(init, d[i]) < |init|;
        }
      }
    }
  }

  const ChipCount: nat := 5

  /** The five sample positions of a list of length `n`: first, quarter, half, three quarters, last. */
  function SampleIndices(n: nat): (idx: seq<int>)
    requires n > 0
    ensures |idx| == 5
    ensures forall k :: 0 <= k < 5 ==> 0 <= idx[k] < n
    ensures idx[0] == 0 && idx[4] == n - 1
    ensures idx[1] == n / 4 && idx[2] == n / 2 && idx[3] == (3 * n) / 4
  {
    var q := (n as real * 0.25).Floor;
    var h := (n as real * 0.5).Floor;
    var t := (n as real * 0.75).Floor;
    [0, q, h, t, n - 1]
  }

  /** The amounts at the five sample positions, in position order. */
  function Samples(list: seq<real>): (picks: seq<real>)
    requires |list| > 0
    ensures |picks| == 5
    ensures forall k :: 0 <= k < 5 ==> picks[k] == list[SampleIndices(|list|)[k]]
    ensures forall x :: x in picks ==> x in list
  {
    var idx := SampleIndices(|list|);
    seq(5, k requires 0 <= k < 5 => list[idx[k]])
  }

  /**
   * `pickRepresentativeChips`: a list of at most five is shown whole;
   * otherwise the distinct sampled amounts, each at its first sample
   * position, shown in position order.
   */
  function PickRepresentativeChips(list: seq<real>): (r: seq<real>)
    ensures |list| <= ChipCount ==> r == list
    ensures |list| > ChipCount ==>
      && 0 < |r| <= ChipCount
      && Distinct(r)
      && r[0] == list[0]
      && (forall x :: x in r <==> x in Samples(list))
      && (forall x :: x in r ==> x in list)
      && (forall i, j :: 0 <= i < j < |r| ==> IndexOf(Samples(list), r[i]) < IndexOf(Samples(list), r[j]))
  {
    if |list| <= ChipCount then list
    else
      var unique := Dedupe(Samples(list));
      assert unique[..Min(ChipCount, |unique|)] == unique;
      unique[..Min(ChipCount, |unique|)]
  }

  // ---------------------------------------------------------------- the engine's bet

  /** The engine's copy of the bet list and the selected bet; `None` is `undefined`. */
  datatype BetView = BetView(betList: seq<real>, betIndex: int, betAmount: Option<real>)

  /** `setConfig`: take a new list and preselect the default bet. */
  function SetConfig(v: BetView, betList: seq<real>): (r: BetView)
    ensures r.betList == betList
    ensures r.betIndex == DefaultBetIndex(betList)
    ensures |betList| > 0 ==> Consistent(r.betList, r.betIndex, r.betAmount)
    ensures |betList| == 0 ==> r.betAmount.None?
  {
    var idx := DefaultBetIndex(betList);
    BetView(betList, idx, At(betList, idx))
  }

  /**
   * `updateBetDisplay`: the amount is always taken, the index only when the
   * amount is on the list — so an amount not on the list leaves the index
   * pointing elsewhere.
   */
  function UpdateBetDisplay(v: BetView, amount: real): (r: BetView)
    ensures r.betAmount == Some(amount) && r.betList == v.betList
    ensures amount in v.betList ==> r.betIndex == IndexOf(v.betList, amount)
    ensures amount in v.betList ==> Consistent(r.betList, r.betIndex, r.betAmount)
    ensures amount !in v.betList ==> r.betIndex == v.betIndex
  {
    var idx := IndexOf(v.betList, amount);
    v.(betAmount := Some(amount), betIndex := if idx != -1 then idx else v.betIndex)
  }

  /** An amount off the list desynchronises index and amount. */
  lemma UpdateBetDisplayOffList(v: BetView, amount: real)
    requires amount !in v.betList
    ensures !Consistent(UpdateBetDisplay(v, amount).betList, UpdateBetDisplay(v, amount).betIndex,
                        UpdateBetDisplay(v, amount).betAmount)
  {
  }

  /**
   * The engine follows the proxy: when the proxy steps the bet and
   * broadcasts the new amount, an engine holding the same list shows that
   * amount with a matching index, and on a list without repeats the very
   * index the proxy selected.
   */
  lemma EngineFollowsAdjustBet(v: BetView, s: GameProxy.GameState, delta: int)
    requires s.config.Some? && v.betList == s.config.value.betList && |v.betList| > 0
    ensures
      var p := GameProxy.AdjustBet(s, delta);
      var w := UpdateBetDisplay(v, p.betAmount.value);
      && w.betAmount == p.betAmount
      && Consistent(w.betList, w.betIndex, w.betAmount)
      && (Distinct(v.betList) ==> w.betIndex == p.betIndex)
  {
    var p := GameProxy.AdjustBet(s, delta);
    assert v.betList[p.betIndex] == p.betAmount.value;
  }

  // ---------------------------------------------------------------- shooting and auto-play

  /** A shooting round starts only when the balance covers the bet (`balance >= undefined` is false). */
  predicate CanStartShooting(balance: real, betAmount: Option<real>): (ok: bool)
    ensures betAmount.None? ==> !ok
    ensures betAmount.Some? ==> (ok <==> betAmount.value <= balance)
  {
    betAmount.Some? && balance >= betAmount.value
  }

  datatype Auto = Auto(active: bool, rounds: int, maxRounds: int, minMul: real, maxMul: real)

  /** A round count at or above this is unlimited and never counts down. */
  const UnlimitedRounds: int := 9999

  /** `onStartAuto`: switch on with a full round budget. */
  function StartAuto(a: Auto): (r: Auto)
    ensures r.active && r.rounds == a.maxRounds
    ensures r.maxRounds == a.maxRounds && r.minMul == a.minMul && r.maxMul == a.maxMul
  {
    a.(active := true, rounds := a.maxRounds)
  }

  /**
   * Whether the bot launches from the ground this frame: auto is on, an
   * active target spring is in reach, its multiplier is inside the chosen
   * range and no request is pending. The random frame delay is not modelled.
   */
  function AutoLaunches(a: Auto, targetMul: Option<real>, waitingForServer: bool): (go: bool)
    ensures go ==> a.active && !waitingForServer
    ensures go ==> targetMul.Some? && a.minMul <= targetMul.value <= a.maxMul
    ensures (a.active && !waitingForServer && targetMul.Some?
             && a.minMul <= targetMul.value <= a.maxMul) ==> go
  {
    a.active && targetMul.Some? && a.minMul <= targetMul.value && targetMul.value <= a.maxMul
    && !waitingForServer
  }

  /**
   * Right after `onStartAuto` the bot launches on a target exactly when the
   * target's multiplier is inside the chosen range and nothing is pending;
   * with no target in reach it does not launch.
   */
  lemma AutoLaunchesAfterStart(a: Auto, targetMul: Option<real>, waitingForServer: bool)
    ensures targetMul.Some? && !waitingForServer ==>
      (AutoLaunches(StartAuto(a), targetMul, waitingForServer) <==> a.minMul <= targetMul.value <= a.maxMul)
    ensures targetMul.None? || waitingForServer ==> !AutoLaunches(StartAuto(a), targetMul, waitingForServer)
  {
  }

  /**
   * Once the sky frames have used up a finite budget, or a frame finds the
   * balance short of the bet, the bot is off and launches on no target.
   */
  lemma AutoStopNeverLaunches(a: Auto, balances: seq<real>, betAmount: Option<real>,
                              targetMul: Option<real>, waitingForServer: bool)
    requires a.active && 1 <= a.rounds < UnlimitedRounds
    requires AllCover(balances, betAmount) && |balances| >= a.rounds
    ensures !AutoLaunches(AutoRun(a, balances, betAmount).0, targetMul, waitingForServer)
    ensures forall balance :: !CanStartShooting(balance, betAmount) ==>
      !AutoLaunches(AutoSkyStep(a, balance, betAmount).0, targetMul, waitingForServer)
  {
    AutoRunFiresBudget(a, balances, betAmount);
  }

  /**
   * One frame of the bot in the sky when it is free to fire: shoot if the
   * balance covers the bet and count the round down (unless unlimited),
   * stopping at zero; otherwise stop. The flag says whether a round started.
   */
  function AutoSkyStep(a: Auto, balance: real, betAmount: Option<real>): (r: (Auto, bool))
    ensures !a.active ==> r == (a, false)
    ensures a.active ==> (r.1 <==> CanStartShooting(balance, betAmount))
    ensures a.active && r.1 && a.rounds < UnlimitedRounds ==>
      r.0.rounds == a.rounds - 1 && (r.0.active <==> a.rounds - 1 > 0)
    ensures a.active && r.1 && a.rounds >= UnlimitedRounds ==> r.0 == a
    ensures a.active && !r.1 ==> !r.0.active && r.0.rounds == a.rounds
    ensures r.0.maxRounds == a.maxRounds && r.0.minMul == a.minMul && r.0.maxMul == a.maxMul
  {
    if !a.active then (a, false)
    else if CanStartShooting(balance, betAmount) then
      if a.rounds < UnlimitedRounds then
        var counted := a.(rounds := a.rounds - 1);
        (if counted.rounds <= 0 then counted.(active := false) else counted, true)
      else (a, true)
    else (a.(active := false), false)
  }

  /** Successive sky frames with the given balances; the number of rounds started. */
  function AutoRun(a: Auto, balances: seq<real>, betAmount: Option<real>): (r: (Auto, nat))
    decreases |balances|
  {
    if |balances| == 0 then (a, 0)
    else
      var (a', shot) := AutoSkyStep(a, balances[0], betAmount);
      var (final, n) := AutoRun(a', balances[1..], betAmount);
      (final, n + if shot then 1 else 0)
  }

  predicate AllCover(balances: seq<real>, betAmount: Option<real>)
  {
    forall i :: 0 <= i < |balances| ==> CanStartShooting(balances[i], betAmount)
  }

  /**
   * With a finite budget of `rounds` and enough money every frame, the bot
   * fires exactly `rounds` times and then switches itself off; an
   * unlimited budget fires every frame and never stops.
   */
  lemma {:induction false} AutoRunFiresBudget(a: Auto, balances: seq<real>, betAmount: Option<real>)
    requires a.active && a.rounds >= 1
    requires AllCover(balances, betAmount)
    ensures a.rounds < UnlimitedRounds ==>
      && AutoRun(a, balances, betAmount).1 == Min(|balances|, a.rounds)
      && (AutoRun(a, balances, betAmount).0.active <==> |balances| < a.rounds)
    ensures a.rounds >= UnlimitedRounds ==>
      AutoRun(a, balances, betAmount) == (a, |balances|)
    decreases |balances|
  {
    if |balances| > 0 {
      var (a', shot) := AutoSkyStep(a, balances[0], betAmount);
      assert shot;
      assert AllCover(balances[1..], betAmount) by {
        forall i | 0 <= i < |balances[1..]| ensures CanStartShooting(balances[1..][i], betAmount) {
          assert balances[1..][i] == balances[i + 1];
        }
      }
      if a'.active {
        AutoRunFiresBudget(a', balances[1..], betAmount);
      } else {
        AutoRunInactive(a', balances[1..], betAmount);
      }
    }
  }

  /** A bot that is off does nothing. */
  lemma {:induction false} AutoRunInactive(a: Auto, balances: seq<real>, betAmount: Option<real>)
    requires !a.active
    ensures AutoRun(a, balances, betAmount) == (a, 0)
    decreases |balances|
  {
    if |balances| > 0 {
      AutoRunInactive(a, balances[1..], betAmount);
    }
  }
}

=== FILE: game_proxy.dfy ===
/**
 * The client's game state (frontend/src/puremvc/model/GameProxy.ts) and
 * the updates its operations make. Server calls are replaced by their
 * replies: `None` when the request threw (an error status or a network
 * failure), in which case the proxy only posts an error notification.
 * Notifications themselves are not part of the state.
 */
module GameProxy {
  import opened Common
  import opened BetSelection
  import opened MathModel

  datatype GameConfigData = GameConfigData(betList: seq<real>, mulSteps: seq<real>, rtp: real)

  datatype AutoSettings = AutoSettings(active: bool, rounds: int, maxRounds: int, minMul: real, maxMul: real)

  /** `betAmount` is `None` where the source reads past the end of the list (`undefined`). */
  datatype GameState = GameState(
    config: Option<GameConfigData>,
    betIndex: int,
    betAmount: Option<real>,
    currentMultiplier: real,
    pinataHits: int,
    currentRoundId: string,
    winStreak: int,
    autoSettings: AutoSettings)

  /** The state the proxy is constructed with. */
  const InitialState: GameState :=
    GameState(None, 4, Some(1.0), 1.0, 0, "", 0, AutoSettings(false, 10, 10, 2.0, 10000.0))

  /** Once a configuration is loaded, the selected index and amount agree with its bet list. */
  predicate BetConsistent(s: GameState)
  {
    s.config.Some? ==> Consistent(s.config.value.betList, s.betIndex, s.betAmount)
  }

  /** The round fields and streak are the same in both states. */
  predicate SameRound(s: GameState, t: GameState)
  {
    && s.currentMultiplier == t.currentMultiplier && s.pinataHits == t.pinataHits
    && s.currentRoundId == t.currentRoundId && s.winStreak == t.winStreak
    && s.autoSettings == t.autoSettings
  }

  /** The configuration and bet fields are the same in both states. */
  predicate SameBet(s: GameState, t: GameState)
  {
    s.config == t.config && s.betIndex == t.betIndex && s.betAmount == t.betAmount
  }

  /** `loadConfig` after the server answered: store the configuration and preselect the default bet. */
  function LoadConfig(s: GameState, config: GameConfigData): (r: GameState)
    ensures r.config == Some(config)
    ensures r.betIndex == DefaultBetIndex(config.betList)
    ensures |config.betList| > 0 ==> BetConsistent(r)
    ensures |config.betList| == 0 ==> r.betAmount.None?
    ensures SameRound(s, r)
  {
    var idx := DefaultBetIndex(config.betList);
    s.(config := Some(config), betIndex := idx, betAmount := At(config.betList, idx))
  }

  /** `setBet`: select an amount by value; an amount not on the list, or no configuration, changes nothing. */
  function SetBet(s: GameState, amount: real): (r: GameState)
    ensures s.config.None? || amount !in s.config.value.betList ==> r == s
    ensures s.config.Some? && amount in s.config.value.betList ==>
      && r.betAmount == Some(amount)
      && r.betIndex == IndexOf(s.config.value.betList, amount)
      && BetConsistent(r)
      && r.config == s.config && SameRound(s, r)
  {
    match s.config
    case None => s
    case Some(config) =>
      var idx := IndexOf(config.betList, amount);
      if idx != -1 then s.(betIndex := idx, betAmount := Some(amount)) else s
  }

  /** `adjustBet`: step the selected index by `delta`, clamped to the list. */
  function AdjustBet(s: GameState, delta: int): (r: GameState)
    ensures s.config.None? ==> r == s
    ensures s.config.Some? ==>
      && r.betIndex == ClampIndex(s.betIndex + delta, |s.config.value.betList|)
      && r.betAmount == At(s.config.value.betList, r.betIndex)
      && r.config == s.config && SameRound(s, r)
    ensures s.config.Some? && |s.config.value.betList| > 0 ==> BetConsistent(r)
    ensures s.config.Some? && |s.config.value.betList| == 0 ==> r.betIndex == 0 && r.betAmount.None?
  {
    match s.config
    case None => s
    case Some(config) =>
      var idx := ClampIndex(s.betIndex + delta, |config.betList|);
      s.(betIndex := idx, betAmount := At(config.betList, idx))
  }

  /** Stepping the bet up never selects a smaller index than stepping it down. */
  lemma AdjustBetMonotone(s: GameState, d1: int, d2: int)
    requires d1 <= d2
    ensures AdjustBet(s, d1).betIndex <= AdjustBet(s, d2).betIndex
  {
    if s.config.Some? {
      ClampIndexMonotone(s.betIndex + d1, s.betIndex + d2, |s.config.value.betList|);
    }
  }

  /** `requestLaunch`: on a reply the round starts at the spring's multiplier with no hits, win or lose. */
  function RequestLaunch(s: GameState, springMultiplier: real, replyRoundId: Option<string>): (r: GameState)
    ensures replyRoundId.None? ==> r == s
    ensures replyRoundId.Some? ==>
      && r.currentMultiplier == springMultiplier
      && r.pinataHits == 0
      && r.currentRoundId == replyRoundId.value
      && r.winStreak == s.winStreak
      && SameBet(s, r)
      && r.autoSettings == s.autoSettings
  {
    match replyRoundId
    case None => s
    case Some(roundId) =>
      s.(currentRoundId := roundId, currentMultiplier := springMultiplier, pinataHits := 0)
  }

  /** `requestShoot`: on a reply one more hit; a jackpot extends the streak, a bad explosion ends it. */
  function RequestShoot(s: GameState, reply: Option<ShootOutcome>): (r: GameState)
    ensures reply.None? ==> r == s
    ensures reply.Some? ==>
      && r.pinataHits == s.pinataHits + 1
      && (reply.value == Jackpot ==> r.winStreak == s.winStreak + 1)
      && (reply.value == BadExplode ==> r.winStreak == 0)
      && (reply.value in {Miss, SmallWin} ==> r.winStreak == s.winStreak)
      && r.currentMultiplier == s.currentMultiplier && r.currentRoundId == s.currentRoundId
      && SameBet(s, r)
      && r.autoSettings == s.autoSettings
  {
    match reply
    case None => s
    case Some(outcome) =>
      var hit := s.(pinataHits := s.pinataHits + 1);
      if outcome == Jackpot then hit.(winStreak := hit.winStreak + 1)
      else if outcome == BadExplode || outcome == Miss then
        (if outcome != Miss then hit.(winStreak := 0) else hit)
      else hit
  }

  /** `resetRound`: back to multiplier 1, no hits and no round id; bets and streak stay. */
  function ResetRound(s: GameState): (r: GameState)
    ensures r.currentMultiplier == 1.0 && r.pinataHits == 0 && r.currentRoundId == ""
    ensures r.winStreak == s.winStreak && SameBet(s, r)
    ensures r.autoSettings == s.autoSettings
  {
    s.(currentMultiplier := 1.0, pinataHits := 0, currentRoundId := "")
  }

  // ---------------------------------------------------------------- sequences of actions

  /** Everything the proxy can be asked to do. */
  datatype Action =
    | Load(config: GameConfigData)
    | PickBet(amount: real)
    | StepBet(delta: int)
    | Launch(springMultiplier: real, replyRoundId: Option<string>)
    | Shoot(reply: Option<ShootOutcome>)
    | Reset

  function Step(s: GameState, a: Action): GameState
  {
    match a
    case Load(config) => LoadConfig(s, config)
    case PickBet(amount) => SetBet(s, amount)
    case StepBet(delta) => AdjustBet(s, delta)
    case Launch(mul, reply) => RequestLaunch(s, mul, reply)
    case Shoot(reply) => RequestShoot(s, reply)
    case Reset => ResetRound(s)
  }

  function Run(s: GameState, actions: seq<Action>): GameState
    decreases |actions|
  {
    if |actions| == 0 then s else Run(Step(s, actions[0]), actions[1..])
  }

  /** The configurations the actions load all offer at least one bet. */
  predicate LoadsNonEmpty(actions: seq<Action>)
  {
    forall i :: 0 <= i < |actions| && actions[i].Load? ==> |actions[i].config.betList| > 0
  }

  /**
   * Whatever the order of actions, the selected bet always agrees with the
   * loaded list, as long as every loaded list is non-empty.
   */
  lemma {:induction false} RunKeepsBetConsistent(s: GameState, actions: seq<Action>)
    requires BetConsistent(s)
    requires LoadsNonEmpty(actions)
    ensures BetConsistent(Run(s, actions))
    decreases |actions|
  {
    if |actions| > 0 {
      var a := actions[0];
      var t := Step(s, a);
      assert BetConsistent(t) by {
        match a
        case Load(config) => assert |config.betList| > 0;
        case PickBet(amount) =>
        case StepBet(delta) =>
          if s.config.Some? { assert |s.config.value.betList| > 0; }
        case Launch(mul, reply) =>
        case Shoot(reply) =>
        case Reset =>
      }
      assert LoadsNonEmpty(actions[1..]) by {
        forall i | 0 <= i < |actions[1..]| && actions[1..][i].Load?
          ensures |actions[1..][i].config.betList| > 0
        {
          assert actions[1..][i] == actions[i + 1];
        }
      }
      RunKeepsBetConsistent(t, actions[1..]);
    }
  }

  // ---------------------------------------------------------------- the win streak

  /** A series of answered shots, in order. */
  function ShootAll(s: GameState, outcomes: seq<ShootOutcome>): GameState
    decreases |outcomes|
  {
    if |outcomes| == 0 then s
    else RequestShoot(ShootAll(s, outcomes[..|outcomes| - 1]), Some(outcomes[|outcomes| - 1]))
  }

  function CountJackpots(outcomes: seq<ShootOutcome>): nat
    decreases |outcomes|
  {
    if |outcomes| == 0 then 0
    else CountJackpots(outcomes[..|outcomes| - 1]) + (if outcomes[|outcomes| - 1] == Jackpot then 1 else 0)
  }

  /** The position of the last bad explosion, or -1. */
  function LastExplode(outcomes: seq<ShootOutcome>): (k: int)
    ensures -1 <= k < |outcomes|
    ensures k >= 0 ==> outcomes[k] == BadExplode
    ensures forall j :: k < j < |outcomes| ==> outcomes[j] != BadExplode
    decreases |outcomes|
  {
    if |outcomes| == 0 then -1
    else if outcomes[|outcomes| - 1] == BadExplode then |outcomes| - 1
    else LastExplode(outcomes[..|outcomes| - 1])
  }

  /**
   * The streak after a series of shots: the jackpots since the last bad
   * explosion, added to the old streak if there was none. Misses and small
   * wins neither extend nor break it.
   */
  lemma {:induction false} StreakCountsJackpotsSinceExplode(s: GameState, outcomes: seq<ShootOutcome>)
    ensures ShootAll(s, outcomes).pinataHits == s.pinataHits + |outcomes|
    ensures
      var k := LastExplode(outcomes);
      ShootAll(s, outcomes).winStreak ==
        if k == -1 then s.winStreak + CountJackpots(outcomes) else CountJackpots(outcomes[k + 1..])
    decreases |outcomes|
  {
    if |outcomes| > 0 {
      var n := |outcomes| - 1;
      var init, x := outcomes[..n], outcomes[n];
      assert outcomes == init + [x];
      StreakCountsJackpotsSinceExplode(s, init);
      var t := ShootAll(s, init);
      assert ShootAll(s, outcomes) == RequestShoot(t, Some(x));
      var k := LastExplode(init);
      if x == BadExplode {
        assert LastExplode(outcomes) == n;
        assert outcomes[n + 1..] == [];
      } else {
        assert LastExplode(outcomes) == k;
        if k == -1 {
          CountSnoc(init, x);
        } else {
          assert outcomes[k + 1..] == init[k + 1..] + [x];
          CountSnoc(init[k + 1..], x);
        }
      }
    }
  }

  lemma CountSnoc(init: seq<ShootOutcome>, x: ShootOutcome)
    ensures CountJackpots(init + [x]) == CountJackpots(init) + (if x == Jackpot then 1 else 0)
  {
    assert (init + [x])[..|init|] == init;
  }
}

=== FILE: math_model.dfy ===
/**
 * The server-side outcome engine (`MathModel`). Every `Math.random()` draw
 * is an explicit parameter (a real in [0, 1) at the call site) and
 * `Math.sin` is passed in as a function, so each outcome is a deterministic
 * function of the engine state, the request and the draws.
 */
module MathModel {
  import opened Common
  import opened Cents

  /** The engine's session state. */
  datatype Engine = Engine(targetRTP: real, cyclePhase: real, spinCount: nat)

  /** The constructor: `cyclePhase` is a random angle in [0, 2π) chosen by the caller. */
  function NewEngine(targetRTP: real, initialPhase: real): (e: Engine)
    ensures e.spinCount == 0
  {
    Engine(targetRTP, initialPhase, 0)
  }

  // ---------------------------------------------------------------- launch

  const HitRate: real := 0.40

  datatype LaunchResult = LaunchResult(isWin: bool, winAmount: real, multiplier: real)

  /** The multiplier ladder of a winning launch: one draw against ascending cumulative bounds. */
  function LaunchMultiplier(rand: real): (m: real)
    ensures m == 1.5 <==> rand < 0.5
    ensures m == 2.0 <==> 0.5 <= rand < 0.8
    ensures m == 3.0 <==> 0.8 <= rand < 0.95
    ensures m == 5.0 <==> 0.95 <= rand
  {
    if rand < 0.5 then 1.5
    else if rand < 0.8 then 2.0
    else if rand < 0.95 then 3.0
    else 5.0
  }

  /** A larger draw never yields a smaller multiplier. */
  lemma LaunchMultiplierMonotone(a: real, b: real)
    requires a <= b
    ensures LaunchMultiplier(a) <= LaunchMultiplier(b)
  {
  }

  /**
   * `getLaunchResult`: `winDraw` decides win or loss; `ladderDraw` (drawn only
   * on a win) picks the multiplier.
   */
  function GetLaunchResult(betAmount: real, winDraw: real, ladderDraw: real): (r: LaunchResult)
    ensures r.isWin <==> winDraw < HitRate
    ensures !r.isWin ==> r.winAmount == 0.0 && r.multiplier == 0.0
    ensures r.isWin ==> r.multiplier == LaunchMultiplier(ladderDraw)
    ensures r.isWin ==> r.multiplier in {1.5, 2.0, 3.0, 5.0}
    ensures r.isWin ==> r.winAmount == betAmount * r.multiplier
    ensures r.isWin && betAmount >= 0.0 ==> 1.5 * betAmount <= r.winAmount <= 5.0 * betAmount
  {
    if winDraw < HitRate then
      var m := LaunchMultiplier(ladderDraw);
      LaunchResult(true, betAmount * m, m)
    else
      LaunchResult(false, 0.0, 0.0)
  }

  // ---------------------------------------------------------------- shoot

  datatype ShootOutcome = Jackpot | SmallWin | BadExplode | Miss

  const PhaseStep: real := 0.2
  const MinJackpotChance: real := 0.000001
  const MaxJackpotChance: real := 0.5

  /** `1 + sin(phase) * 0.2`, given the sine of the advanced phase. */
  function LuckFactor(sine: real): (luck: real)
    ensures -1.0 <= sine <= 1.0 ==> 0.8 <= luck <= 1.2
  {
    1.0 + sine * 0.2
  }

  function SmallWinChance(luck: real): real
  {
    0.45 * luck
  }

  /** `Math.max(lo, Math.min(hi, x))`. */
  function Clamp(lo: real, hi: real, x: real): (r: real)
    requires lo <= hi
    ensures lo <= r <= hi
    ensures lo <= x <= hi ==> r == x
  {
    if x > hi then hi else if x < lo then lo else x
  }

  /** The jackpot chance before the luck factor is applied: RTP share over the multiplier, clamped. */
  function BaseJackpotChance(targetRTP: real, currentMultiplier: real, luck: real): (c: real)
    requires currentMultiplier != 0.0
    ensures MinJackpotChance <= c <= MaxJackpotChance
    ensures var share := (targetRTP - SmallWinChance(luck) * 0.5) / currentMultiplier;
      MinJackpotChance <= share <= MaxJackpotChance ==> c == share
  {
    var contribution := targetRTP - SmallWinChance(luck) * 0.5;
    Clamp(MinJackpotChance, MaxJackpotChance, contribution / currentMultiplier)
  }

  /** The jackpot threshold: the clamped share scaled by the luck factor. */
  function JackpotChance(targetRTP: real, currentMultiplier: real, luck: real): (c: real)
    requires currentMultiplier != 0.0
    ensures 0.8 <= luck <= 1.2 ==> 0.0000008 <= c <= 0.6
  {
    var b := BaseJackpotChance(targetRTP, currentMultiplier, luck);
    assert 0.8 <= luck <= 1.2 ==> 0.0000008 <= b * luck <= 0.6 by {
      if 0.8 <= luck <= 1.2 { LuckScaledBounds(b, luck); }
    }
    b * luck
  }

  /** A clamped chance scaled by a luck factor in [0.8, 1.2]. */
  lemma LuckScaledBounds(b: real, luck: real)
    requires 0.000001 <= b <= 0.5 && 0.8 <= luck <= 1.2
    ensures 0.0000008 <= b * luck <= 0.6
  {
    MulLessEq(0.000001, b, luck);
    MulLessEq(b, 0.5, luck);
    assert 0.0000008 <= 0.000001 * luck <= b * luck;
    assert b * luck <= 0.5 * luck <= 0.6;
  }

  /** Bust risk: a base by multiplier tier plus 0.015 per hit already taken. */
  function ExplodeRisk(currentMultiplier: real, pinataHits: int): (risk: real)
    ensures currentMultiplier < 50.0 ==> risk == 0.02 + pinataHits as real * 0.015
    ensures currentMultiplier >= 50.0 ==> risk == ExplodeRisk(0.0, pinataHits) + 0.02
    ensures pinataHits >= 0 ==> risk >= 0.02
  {
    var baseRisk := if currentMultiplier >= 50.0 then 0.04 else 0.02;
    baseRisk + pinataHits as real * 0.015
  }

  /**
   * The decision of one shot from its three thresholds and two draws: the
   * jackpot test on `roll`, then one shared `subRoll` tested against the
   * explode threshold and then against the small-win chance.
   */
  function Classify(jackpotChance: real, explodeThreshold: real, smallWinChance: real,
                    roll: real, subRoll: real): (o: ShootOutcome)
    ensures o == Jackpot <==> roll < jackpotChance
    ensures o == BadExplode <==> jackpotChance <= roll && subRoll < explodeThreshold
    ensures o == SmallWin <==>
      jackpotChance <= roll && explodeThreshold <= subRoll && subRoll < smallWinChance
    ensures o == Miss <==>
      jackpotChance <= roll && explodeThreshold <= subRoll && smallWinChance <= subRoll
  {
    if roll < jackpotChance then Jackpot
    else if subRoll < explodeThreshold then BadExplode
    else if subRoll < smallWinChance then SmallWin
    else Miss
  }

  /** The state change every shoot call makes, whatever the outcome. */
  function Advance(e: Engine): Engine
  {
    e.(spinCount := e.spinCount + 1, cyclePhase := e.cyclePhase + PhaseStep)
  }

  /**
   * `getShootResult`: advances the phase, takes the luck factor from the
   * sine of the new phase and classifies the shot.
   */
  function GetShootResult(e: Engine, currentMultiplier: real, pinataHits: int,
                          sine: real -> real, roll: real, subRoll: real): (r: (Engine, ShootOutcome))
    requires currentMultiplier != 0.0
    requires -1.0 <= sine(e.cyclePhase + PhaseStep) <= 1.0
    ensures r.0.spinCount == e.spinCount + 1
    ensures r.0.cyclePhase == e.cyclePhase + 0.2
    ensures r.0.targetRTP == e.targetRTP
    ensures
      var luck := LuckFactor(sine(e.cyclePhase + 0.2));
      var jackpot := JackpotChance(e.targetRTP, currentMultiplier, luck);
      && (r.1 == Jackpot <==> roll < jackpot)
      && (r.1 == BadExplode <==>
            jackpot <= roll && subRoll < ExplodeRisk(currentMultiplier, pinataHits) / luck)
      && (r.1 == SmallWin <==>
            jackpot <= roll && ExplodeRisk(currentMultiplier, pinataHits) / luck <= subRoll
            && subRoll < SmallWinChance(luck))
  {
    var e' := Advance(e);
    var luck := LuckFactor(sine(e'.cyclePhase));
    var outcome := Classify(JackpotChance(e.targetRTP, currentMultiplier, luck),
                            ExplodeRisk(currentMultiplier, pinataHits) / luck,
                            SmallWinChance(luck), roll, subRoll);
    (e', outcome)
  }

  /** A real sine: every value lies in [-1, 1]. */
  ghost predicate IsSine(sine: real -> real)
  {
    forall x :: -1.0 <= sine(x) <= 1.0
  }

  /** One shoot request as the engine sees it, with its two draws. */
  datatype Shot = Shot(currentMultiplier: real, pinataHits: int, roll: real, subRoll: real)

  /**
   * A sequence of shoot calls on one engine: the outcomes in call order and
   * the final state. Each call advances the state exactly once.
   */
  function RunShots(e: Engine, shots: seq<Shot>, sine: real -> real): (r: (Engine, seq<ShootOutcome>))
    requires IsSine(sine)
    requires forall i :: 0 <= i < |shots| ==> shots[i].currentMultiplier != 0.0
    ensures |r.1| == |shots|
    ensures r.0.spinCount == e.spinCount + |shots|
    ensures r.0.cyclePhase == e.cyclePhase + 0.2 * |shots| as real
    ensures r.0.targetRTP == e.targetRTP
    decreases |shots|
  {
    if |shots| == 0 then (e, [])
    else
      var s := shots[0];
      var (e', o) := GetShootResult(e, s.currentMultiplier, s.pinataHits, sine, s.roll, s.subRoll);
      var (final, rest) := RunShots(e', shots[1..], sine);
      (final, [o] + rest)
  }

  /**
   * With a luck factor in [0.8, 1.2] the pre-luck jackpot chance lies in
   * [0.000001, 0.5] whatever the RTP (even when its share is negative), and
   * the final threshold in [0.0000008, 0.6].
   */
  lemma JackpotChanceBounds(targetRTP: real, currentMultiplier: real, luck: real)
    requires currentMultiplier != 0.0
    requires 0.8 <= luck <= 1.2
    ensures 0.000001 <= BaseJackpotChance(targetRTP, currentMultiplier, luck) <= 0.5
    ensures 0.0000008 <= JackpotChance(targetRTP, currentMultiplier, luck) <= 0.6
  {
    var b := BaseJackpotChance(targetRTP, currentMultiplier, luck);
    assert b * luck - 0.0000008 == (b - 0.000001) * luck + 0.000001 * (luck - 0.8);
    assert 0.6 - b * luck == (0.5 - b) * luck + 0.5 * (1.2 - luck);
  }

  /**
   * For a fixed RTP and luck factor, a higher locked-in multiplier never
   * raises the jackpot threshold.
   */
  lemma JackpotChanceNonIncreasing(targetRTP: real, luck: real, m1: real, m2: real)
    requires 0.0 < m1 <= m2
    requires luck >= 0.0
    ensures JackpotChance(targetRTP, m2, luck) <= JackpotChance(targetRTP, m1, luck)
  {
    var j1, j2 := JackpotChance(targetRTP, m1, luck), JackpotChance(targetRTP, m2, luck);
    var b1, b2 := BaseJackpotChance(targetRTP, m1, luck), BaseJackpotChance(targetRTP, m2, luck);
    assert j1 == b1 * luck;
    assert j2 == b2 * luck;
    BaseJackpotChanceNonIncreasing(targetRTP, luck, m1, m2);
    ScaleKeepsOrder(b2, b1, luck, j2, j1);
  }

  /** Scaling two ordered chances by the same non-negative factor keeps their order. */
  lemma ScaleKeepsOrder(lower: real, upper: real, k: real, scaledLower: real, scaledUpper: real)
    requires lower <= upper && k >= 0.0
    requires scaledLower == lower * k && scaledUpper == upper * k
    ensures scaledLower <= scaledUpper
  {
    MulLessEq(lower, upper, k);
  }

  /** Before the luck factor: a non-negative share shrinks with the multiplier, a negative one clamps to the floor. */
  lemma BaseJackpotChanceNonIncreasing(targetRTP: real, luck: real, m1: real, m2: real)
    requires 0.0 < m1 <= m2
    ensures BaseJackpotChance(targetRTP, m2, luck) <= BaseJackpotChance(targetRTP, m1, luck)
  {
    var c := targetRTP - SmallWinChance(luck) * 0.5;
    if c >= 0.0 {
      DivMonotone(c, m1, m2);
    } else {
      assert c / m1 < 0.0 && c / m2 < 0.0 by {
        assert c / m1 * m1 == c;
        assert c / m2 * m2 == c;
      }
    }
  }

  /** A non-negative share spread over a larger multiplier is no larger. */
  lemma DivMonotone(c: real, m1: real, m2: real)
    requires c >= 0.0 && 0.0 < m1 <= m2
    ensures c / m2 <= c / m1
  {
    var d := c * (m2 - m1);
    assert d >= 0.0 by { MulLessEq(0.0, m2 - m1, c); }
    assert m1 * m2 > 0.0 by { MulLess(0.0, m1, m2); }
    assert c / m1 - c / m2 == d / (m1 * m2);
  }

  /** Each hit already taken adds exactly 0.015 to the bust risk, so the risk strictly grows with hits. */
  lemma ExplodeRiskIncreasing(currentMultiplier: real, h1: int, h2: int)
    requires h1 < h2
    ensures ExplodeRisk(currentMultiplier, h1 + 1) == ExplodeRisk(currentMultiplier, h1) + 0.015
    ensures ExplodeRisk(currentMultiplier, h1) < ExplodeRisk(currentMultiplier, h2)
  {
  }

  /** A roll under the jackpot threshold is a jackpot whatever the second draw. */
  lemma JackpotIgnoresSubRoll(e: Engine, currentMultiplier: real, pinataHits: int,
                              sine: real -> real, roll: real, subRoll1: real, subRoll2: real)
    requires currentMultiplier != 0.0
    requires -1.0 <= sine(e.cyclePhase + PhaseStep) <= 1.0
    requires roll < JackpotChance(e.targetRTP, currentMultiplier, LuckFactor(sine(e.cyclePhase + 0.2)))
    ensures GetShootResult(e, currentMultiplier, pinataHits, sine, roll, subRoll1).1 == Jackpot
    ensures GetShootResult(e, currentMultiplier, pinataHits, sine, roll, subRoll1)
         == GetShootResult(e, currentMultiplier, pinataHits, sine, roll, subRoll2)
  {
  }

  /** Explode, small win and miss in the order one shared second draw decides them. */
  function Rank(o: ShootOutcome): nat
  {
    match o
    case Jackpot => 0
    case BadExplode => 1
    case SmallWin => 2
    case Miss => 3
  }

  /**
   * Once the jackpot test fails, the explode, small-win and miss outcomes
   * are consecutive bands of the same second draw: a larger `subRoll` never
   * gives an earlier band.
   */
  lemma SharedSubRollBands(e: Engine, currentMultiplier: real, pinataHits: int,
                           sine: real -> real, roll: real, subRoll1: real, subRoll2: real)
    requires currentMultiplier != 0.0
    requires -1.0 <= sine(e.cyclePhase + PhaseStep) <= 1.0
    requires JackpotChance(e.targetRTP, currentMultiplier, LuckFactor(sine(e.cyclePhase + 0.2))) <= roll
    requires subRoll1 <= subRoll2
    ensures
      var o1 := GetShootResult(e, currentMultiplier, pinataHits, sine, roll, subRoll1).1;
      var o2 := GetShootResult(e, currentMultiplier, pinataHits, sine, roll, subRoll2).1;
      o1 != Jackpot && o2 != Jackpot && Rank(o1) <= Rank(o2)
  {
  }

  /**
   * Four worked shots at RTP 0.96, multiplier 10, no hits and luck 1
   * (sine 0): jackpot threshold 0.0735, explode threshold 0.02, small-win
   * chance 0.45.
   */
  lemma WorkedShots(e: Engine)
    requires e.targetRTP == 0.96
    ensures var zero := (x: real) => 0.0;
      && JackpotChance(0.96, 10.0, LuckFactor(0.0)) == 0.0735
      && GetShootResult(e, 10.0, 0, zero, 0.05, 0.0).1 == Jackpot
      && GetShootResult(e, 10.0, 0, zero, 0.5, 0.01).1 == BadExplode
      && GetShootResult(e, 10.0, 0, zero, 0.5, 0.3).1 == SmallWin
      && GetShootResult(e, 10.0, 0, zero, 0.5, 0.9).1 == Miss
  {
  }

  // ---------------------------------------------------------------- small win

  const BonusChance: real := 0.1

  /**
   * `getSmallWinAmount`: with `bonusDraw` below 0.1 one and a half times the
   * bet, otherwise a fraction in [0.2, 0.8) chosen by `fractionDraw`; both
   * floored to the cent.
   */
  function GetSmallWinAmount(betAmount: real, bonusDraw: real, fractionDraw: real): (r: real)
    ensures WholeCents(r)
    ensures bonusDraw < BonusChance ==> betAmount * 1.5 - 0.01 < r <= betAmount * 1.5
    ensures BonusChance <= bonusDraw ==>
      var amount := betAmount * (0.2 + fractionDraw * 0.6);
      amount - 0.01 < r <= amount
    ensures BonusChance <= bonusDraw && IsDraw(fractionDraw) && betAmount >= 0.0 ==>
      betAmount * 0.2 - 0.01 < r <= betAmount * 0.8
    ensures IsDraw(fractionDraw) && betAmount >= 0.0 ==> 0.0 <= r <= betAmount * 1.5
  {
    if bonusDraw < BonusChance then FloorToCent(betAmount * 1.5)
    else
      var amount := betAmount * (0.2 + fractionDraw * 0.6);
      assert IsDraw(fractionDraw) && betAmount >= 0.0 ==>
        betAmount * 0.2 <= amount <= betAmount * 0.8 by {
        if IsDraw(fractionDraw) && betAmount >= 0.0 {
          ShareBounds(betAmount, fractionDraw);
        }
      }
      FloorToCent(amount)
  }

  /** The ordinary small-win share 0.2 + 0.6 * draw lies in [0.2, 0.8). */
  lemma ShareBounds(b: real, f: real)
    requires b >= 0.0 && IsDraw(f)
    ensures b * 0.2 <= b * (0.2 + f * 0.6) <= b * 0.8
  {
    var s := 0.2 + f * 0.6;
    assert 0.2 <= s <= 0.8;
    assert b * s - b * 0.2 == b * (s - 0.2);
    assert b * 0.8 - b * s == b * (0.8 - s);
  }

  /** Flooring, not rounding to nearest: half a bet of 10 is exactly 5.00. */
  lemma SmallWinFloorsToCent()
    ensures GetSmallWinAmount(10.0, 0.5, 0.5) == 5.0
    ensures GetSmallWinAmount(10.0, 0.05, 0.5) == 15.0
  {
    WholeCentsFixed(5.0);
    WholeCentsFixed(15.0);
  }

  // ---------------------------------------------------------------- config

  /** `setRTP`: replaces the target return-to-player and nothing else. */
  function SetRTP(e: Engine, rtp: real): (r: Engine)
    ensures r.targetRTP == rtp
    ensures r.cyclePhase == e.cyclePhase && r.spinCount == e.spinCount
  {
    e.(targetRTP := rtp)
  }

  /** A new target takes effect on the next shot: the threshold uses it, and the phase advance is unaffected. */
  lemma SetRTPThenShoot(e: Engine, rtp: real, currentMultiplier: real, pinataHits: int,
                        sine: real -> real, roll: real, subRoll: real)
    requires currentMultiplier != 0.0
    requires -1.0 <= sine(e.cyclePhase + PhaseStep) <= 1.0
    ensures
      var r := GetShootResult(SetRTP(e, rtp), currentMultiplier, pinataHits, sine, roll, subRoll);
      var luck := LuckFactor(sine(e.cyclePhase + 0.2));
      && r.0 == SetRTP(GetShootResult(e, currentMultiplier, pinataHits, sine, roll, subRoll).0, rtp)
      && (r.1 == Jackpot <==> roll < JackpotChance(rtp, currentMultiplier, luck))
  {
  }

  /** Only the last target counts. */
  lemma SetRTPOverwrites(e: Engine, a: real, b: real)
    ensures SetRTP(SetRTP(e, a), b) == SetRTP(e, b)
  {
  }
}
